=== FILE: README.md ===
# PlayStation Store discount parser, modelled in Dafny

The parser walks the 243 catalog pages of the Turkish PlayStation Store. For each
discounted game it opens the detail page, reads the discount expiry and the
original and final prices, and appends an entry to `psn_games`. After every
append it rewrites `psn_games.json`. Requests go through proxies taken
round-robin from `proxy.txt`. Each request is tried at most `retry_attemps`
times. The proxy changes every `replace_proxy_count` pages, after every failed
catalog page fetch, and every `replace_proxy_count` detail requests.

The model covers three parts of `parser/parser/psn_parser.py`:

- **`clean_price`** (`price.dfy`, on top of the Python string functions in
  `pystring.dfy`). It turns a label such as `"1.299,90 TL"` into the text handed
  to `float`, then into an exact decimal, or into the `ValueError` that `float('.')`
  raises. The main theorem, `CleanIsReference`, says that the chain of replaces,
  strip and split reads any label like a simple reference: with a comma, the
  digits before the first comma, a point, then the digits after it; without
  one, all of the label's digits.
- **`get_proxy`** (`proxy.dfy`). It moves a round-robin cursor over the proxy
  list. The model proves the cursor is always valid, that it advances by one
  modulo the length, and that the walk is a cycle of exactly that length.
- **`main`**, as a sequential state machine, in four files:
  - `pipeline.dfy` gives what each loop computes, as functions of the
    configuration, the proxy list and the store's answers.
  - `driver.dfy` runs the loops imperatively in class `Parser`, whose fields are
    `main`'s locals: `proxy`, `proxy_id`, `discount_request_count`, `psn_games`,
    and the sequence of files written. Each loop method is proved to compute
    the function that specifies it. The set-up, the proxy call, one detail
    attempt and the append-and-dump are stated directly on the fields.
  - `run_facts.dfy` proves what the loops promise: how many requests and proxy
    moves each retry loop makes, what a listing adds or skips, and that every
    entry is the store's answer to one of the detail requests sent for its own
    link. For that it records, next to each loop, the detail requests it sends
    in order, each as its link and the proxy it went through. The k-th request
    of a run carries request number k, the value of `discount_request_count`
    when it goes out.
  - `listing_facts.dfy` proves which listings become entries: each entry is
    read from its own listing, in visiting order, and no listing gives two.
    Under a shuffle that permutes, the same holds of the page as served.

The store is an oracle in the model:
- `fetchGameData(page, proxy, attempt)` answers a catalog page fetch.
- `fetchDiscountData(link, proxy, requestNumber)` answers a detail page fetch.
- `shuffle(page, games)` stands for `random.shuffle`.

Each oracle takes everything that tells one request from another, so
retries can get different answers. The HTML lookups are already applied: a
listing is a record of its optional title, badge and `href`, and a detail page
is a record of its optional expiry, original price and final price texts.

Two facts from the code are made explicit in the model:
- A missing title, price span or link raises in the source, through `.text` or `['href']` on `None`. The model ends the run with `MissingElement`.
- The first `get_proxy(proxy_list, 0)` already moves to index 1 when the list has two or more entries (`InitialSession`).

## Model

| member | source | states |
|---|---|---|
| PyString.IsDigit | parser/parser/psn_parser.py:29-33 | `str.isdigit` on one character, for the ASCII digits '0' to '9'; `DigitsAreDigits` proves the filtered text is made of them |
| PyString.IsSpace | parser/parser/psn_parser.py:22 | `str.isspace` on one character: the code points `str.strip()` removes; `StripTrims` proves no such character is left at either end |
| PyString.Filter | parser/parser/psn_parser.py:29-33 | `''.join(filter(..))` never lengthens its input |
| PyString.FilterKeeps | parser/parser/psn_parser.py:29-33 | the filtered text holds only characters of the class, and holds every such character of the input |
| PyString.DigitsAreDigits | parser/parser/psn_parser.py:29-33 | `filter(str.isdigit, ..)` leaves ASCII digits only |
| PyString.Digits | parser/parser/psn_parser.py:29-33 | `''.join(filter(str.isdigit, s))`; its result is digits only (`DigitsAreDigits`) and keeps every digit of `s` in order (`FilterKeeps`, `FilterAppend`) |
| PyString.FilterAppend | parser/parser/psn_parser.py:29-33 | filtering distributes over concatenation |
| PyString.Remove | parser/parser/psn_parser.py:22 | `replace(c, '')` removes every `c` and keeps every other character present |
| PyString.RemoveSubstring | parser/parser/psn_parser.py:22 | `replace('TL', '')` never lengthens and introduces no character |
| PyString.Replace | parser/parser/psn_parser.py:25 | `replace(',', '.')` keeps the length and leaves no comma |
| PyString.ReplacedIn | parser/parser/psn_parser.py:25-27 | after replacing commas by points in a text without points, a point is present exactly when a comma was |
| PyString.StripLeftTrims | parser/parser/psn_parser.py:22 | `lstrip` returns a suffix, drops only whitespace, and stops at a non-space |
| PyString.StripRightTrims | parser/parser/psn_parser.py:22 | `rstrip` returns a prefix, drops only whitespace, and stops at a non-space |
| PyString.StripLeft | parser/parser/psn_parser.py:22 | `lstrip`; `StripLeftTrims` proves it drops exactly the leading whitespace |
| PyString.StripRight | parser/parser/psn_parser.py:22 | `rstrip`; `StripRightTrims` proves it drops exactly the trailing whitespace |
| PyString.Strip | parser/parser/psn_parser.py:22 | `strip` as `rstrip` after `lstrip`; `StripTrims` and `StripKeeps` prove it trims both ends and adds nothing |
| PyString.StripTrims | parser/parser/psn_parser.py:22 | `strip` leaves no whitespace at either end |
| PyString.StripKeeps | parser/parser/psn_parser.py:22 | `strip` introduces no character |
| PyString.FilterStrip | parser/parser/psn_parser.py:22 | `strip` is invisible to a filter that keeps no whitespace |
| PyString.FilterReplace | parser/parser/psn_parser.py:25 | replacing one non-kept character by another is invisible to the filter |
| PyString.FilterRemove | parser/parser/psn_parser.py:22 | removing a non-kept character is invisible to the filter |
| PyString.FilterRemoveSubstring | parser/parser/psn_parser.py:22 | removing a pattern with no kept character is invisible to the filter |
| PyString.IndexOf | parser/parser/psn_parser.py:28 | the position found holds the separator and is its first occurrence |
| PyString.SplitOnce | parser/parser/psn_parser.py:28 | `split(sep, 1)` gives the text before the first separator and the rest, which rejoin to the input |
| PyString.SplitAtFirst | parser/parser/psn_parser.py:28 | splitting `a + sep + b` with no separator in `a` gives back `a` and `b` |
| PyString.FilterSplitOnce | parser/parser/psn_parser.py:28-30 | splitting after filtering equals filtering each part when the separator is kept |
| PriceCleaning.Stripped | parser/parser/psn_parser.py:21-23 | after the opening replaces and strip, no '.' is left |
| PriceCleaning.Clean | parser/parser/psn_parser.py:20-33 | the text handed to `float` has digit-only parts and is ASCII digits with at most one '.' |
| PriceCleaning.CleanPrice | parser/parser/psn_parser.py:35 | `float` fails exactly on the text ".", with that text as the error; the empty text gives 0.0; every other price is made of digits |
| PriceCleaning.SignatureOfStripped | parser/parser/psn_parser.py:21-23 | the opening replaces and strip drop no digit and no comma |
| PriceCleaning.DotSeparatorIsComma | parser/parser/psn_parser.py:25-33 | with no '.' left, turning commas into points and splitting on the first point reads the digits before and after the first comma |
| PriceCleaning.ReferenceBySignature | parser/parser/psn_parser.py:27-33 | the reading depends only on the label's digits and commas |
| PriceCleaning.CleanIsReference | parser/parser/psn_parser.py:20-33 | `clean_price` up to `float` equals the reference reading: digits before the first comma, '.', digits after it; otherwise all the digits |
| PriceCleaning.CleanPriceFailsExactly | parser/parser/psn_parser.py:27-35 | `float` raises exactly when the label has a comma and no digit at all |
| PriceCleaning.CleanPriceWithoutComma | parser/parser/psn_parser.py:32-35 | with no comma the price is the label's digits as an integer (0.0 when there are none) |
| PriceCleaning.CleanPriceAtComma | parser/parser/psn_parser.py:25-31 | with a comma and some digit, the price is the digits before the first comma, point, the digits after it |
| PriceCleaning.ThousandsAndDecimalComma | parser/parser/psn_parser.py:20-35 | a label of digits with thousands dots, a decimal comma, fraction digits and a currency trailer cleans to the decimal whose value is all its digits read as one number over `10^len(fraction)` |
| PriceCleaning.ExampleThousands | parser/parser/psn_parser.py:20-35 | "1.299,90 TL" cleans to 1299.90 |
| PriceCleaning.ExampleDetailPrices | parser/parser/psn_parser.py:20-35 | "499,00 TL" and "249,50 TL" clean to 499.00 and 249.50 |
| PriceCleaning.ExampleEdges | parser/parser/psn_parser.py:27-35 | "" and "TL" give 0.0, and "," makes `float` raise on "." |
| PriceCleaning.NumberValue | parser/parser/psn_parser.py:35 | the integer `float` reads from a digit string; `NumberValueAppend` and `NumberValueBound` state its positional meaning |
| PriceCleaning.Value | parser/parser/psn_parser.py:35 | the exact value of `float(integer_part + '.' + decimal_part)`; `ValueAsScaled` and `ValueBetween` state what it is |
| PriceCleaning.Pow10Add | parser/parser/psn_parser.py:35 | `10^(x+y) = 10^x * 10^y`, the shift behind positional notation |
| PriceCleaning.NumberValueAppend | parser/parser/psn_parser.py:35 | reading `a + b` as a number is reading `a`, shifted by `len(b)` places, plus reading `b` |
| PriceCleaning.NumberValueBound | parser/parser/psn_parser.py:35 | a number of `n` digits is below `10^n` |
| PriceCleaning.ValueAsScaled | parser/parser/psn_parser.py:35 | a decimal's value is all its digits read as one integer divided by `10^len(decimal_part)` |
| PriceCleaning.ValueBetween | parser/parser/psn_parser.py:35 | a decimal's value lies between its integer part, included, and the next integer, excluded |
| PriceCleaning.ExampleValues | parser/parser/psn_parser.py:35 | the exact values of those decimals: 1299.9, 499.0, 249.5, 0.0 |
| PriceCleaning.LabelAtComma | parser/parser/psn_parser.py:25-31 | a comma label whose integer part has a digit cleans to its two digit runs |
| PriceCleaning.DigitsAroundSeparator | parser/parser/psn_parser.py:29-30 | the digits of `before + sep + after` are the digits of each side when `sep` is no digit |
| PriceCleaning.SplitShape | parser/parser/psn_parser.py:31 | `integer_part + '.' + decimal_part` is decimal text |
| ProxyRotation.GetProxy | parser/parser/psn_parser.py:50-64 | an empty list gives `(None, 0)`; otherwise the new cursor is 0 from `len-1` or beyond and `proxy_id+1` below, it is always a valid index, and the proxy is that entry stripped |
| ProxyRotation.NextCursor | parser/parser/psn_parser.py:57-60 | the cursor step of `get_proxy` on a list of length `n`: 0 on an empty list, below `n` otherwise |
| ProxyRotation.NextCursorAdvances | parser/parser/psn_parser.py:57-60 | from a valid index the cursor moves to `(proxy_id + 1) % len`; from beyond the end it restarts at 0 |
| ProxyRotation.Cycle | parser/parser/psn_parser.py:50-64 | after one or more calls the cursor is 0 on an empty list and a valid index otherwise |
| ProxyRotation.CycleModular | parser/parser/psn_parser.py:57-60 | `k` calls from a valid index land on `(proxy_id + k) % len` |
| ProxyRotation.CycleReturns | parser/parser/psn_parser.py:57-60 | `len` calls bring a valid cursor back to where it started, and no fewer do |
| ProxyRotation.CycleAdd | parser/parser/psn_parser.py:57-60 | `a` calls and then `b` calls are `a + b` calls |
| ProxyRotation.MultiplesIn | parser/parser/psn_parser.py:152-154 | the number of scheduled rotations while the counter runs from `lo` to `hi` is at most `hi - lo` |
| ProxyRotation.MultiplesInClosedForm | parser/parser/psn_parser.py:152-154 | that number is `hi / m - lo / m` |
| ProxyRotation.MultiplesInSplit | parser/parser/psn_parser.py:152-154 | the rotations over two adjacent stretches of the counter add up |
| PsnParser.Rotate | parser/parser/psn_parser.py:110 | a proxy move leaves a valid cursor one step further on and the request counter unchanged |
| PsnParser.ScheduledRotation | parser/parser/psn_parser.py:109-110 | the proxy move at the top of a page; `PsnParser.ScheduledRotationMoves` states what it does |
| PsnParser.ScheduledRotationMoves | parser/parser/psn_parser.py:109-110 | the cursor moves one `get_proxy` step when the page number is a multiple of `replace_proxy_count` and none otherwise, the proxy follows the cursor, the request counter is untouched, and a valid session stays valid |
| PsnParser.InitialSession | parser/parser/psn_parser.py:105-106 | `get_proxy(proxy_list, 0)` starts at index 1 when there are two or more proxies, at 0 otherwise, with no request counted |
| PsnParser.PageRetry | parser/parser/psn_parser.py:112-119 | the page retry loop: fetch, stop on an answer, otherwise move the proxy and try again until `retry_attemps`; `RunFacts.PageRetryAccounting` states its counts |
| PsnParser.CountRequest | parser/parser/psn_parser.py:152-154 | one counted detail request: the counter goes up by exactly one, the proxy moves one step exactly when the new count is a multiple of `replace_proxy_count`, and a valid session stays valid |
| PsnParser.DetailRetry | parser/parser/psn_parser.py:149-157 | the detail retry loop: count a request, fetch, stop on an answer, until `retry_attemps`; `RunFacts.DetailRetryAccounting` states its counts |
| PsnParser.ReadDetail | parser/parser/psn_parser.py:164-197 | no expiry span adds nothing; with one, a missing price span or a price `float` rejects raises; otherwise the entry holds the listing's title, badge and link and the page's expiry and cleaned prices |
| PsnParser.GameStep | parser/parser/psn_parser.py:135-170 | one listing: a missing title or `href` raises, no badge skips, otherwise the detail retry loop and the detail read; `RunFacts.GameStepFacts` states its properties |
| PsnParser.GamesLoop | parser/parser/psn_parser.py:135-204 | `for game in games` up to the first exception; `RunFacts.GamesLoopFacts` and `ListingFacts.GamesLoopFromListings` state its properties |
| PsnParser.Arrange | parser/parser/psn_parser.py:132-133 | the listings in visiting order, shuffled when `shuffle_game` is set; `ListingFacts.ArrangeKeepsListings` proves a permuting shuffle keeps them |
| PsnParser.PageStep | parser/parser/psn_parser.py:109-206 | one catalog page: scheduled proxy move, page retries, listings; `RunFacts.PageStepFacts` and `ListingFacts.PageStepListed` state its properties |
| PsnParser.RunFrom | parser/parser/psn_parser.py:108-208 | the pages from `page` on to the last, stopping at the first exception; `RunFacts.RunFromFacts` states its properties |
| PsnParser.Run | parser/parser/psn_parser.py:102-208 | a whole run from the initial session; `RunFacts.RunEntriesHarvested` states its properties |
| RunFacts.PageRetryAccounting | parser/parser/psn_parser.py:112-125 | at most `retry_attemps` page fetches; the page is skipped only after all of them fail; the proxy moves once per failed fetch and not after the successful one; no detail request is counted |
| RunFacts.DetailRetryAccounting | parser/parser/psn_parser.py:149-162 | at most `retry_attemps` detail fetches, each counted once; the item is skipped only after all fail; the proxy moves exactly once per multiple of `replace_proxy_count` the counter reaches |
| RunFacts.DetailRequestsFacts | parser/parser/psn_parser.py:149-157 | the detail retry loop sends one request per attempt, each for the listing's link; when a page is served, the last request is the one answered, through the proxy the loop ends with |
| RunFacts.GameStepFacts | parser/parser/psn_parser.py:135-199 | a listing without a badge adds nothing and sends nothing; every request it sends is for its own link; an added entry carries the listing's title, badge and link and is the store's answer to one of those requests, under that request's number and through the proxy it went out with; the counter rises by the number of requests sent, at most `retry_attemps`; the session stays valid |
| RunFacts.GameStepHarvested | parser/parser/psn_parser.py:149-199 | the entry a listing adds is the store's answer to the last detail request that listing sent |
| RunFacts.AnsweredLast | parser/parser/psn_parser.py:152-156 | a page showing the entry, served on the last request of a stretch through the session's proxy, makes the entry an answer to that stretch |
| RunFacts.GameStepAppends | parser/parser/psn_parser.py:135-197 | a listing with a title, a badge and a link adds an entry exactly when its detail page is served with an expiry span and two prices `float` accepts; the entry is then the listing's title and badge, the two cleaned prices, the expiry text and the link |
| RunFacts.DetailSkipped | parser/parser/psn_parser.py:135-162 | a listing whose detail page is never served adds nothing and raises nothing, after exactly `retry_attemps` counted requests and one proxy move per multiple of `replace_proxy_count` reached; the loop goes on with the next listing from the new session |
| RunFacts.GamesLoopFacts | parser/parser/psn_parser.py:135-204 | the listings of a page only append to `psn_games`; each new entry is the store's answer to one of the detail requests those listings sent, for its own link and through the proxy it went out with; the counter rises by the number of requests sent; the session stays valid |
| ListingFacts.GamesLoopFromListings | parser/parser/psn_parser.py:135-199 | the entries a page's listings loop appends are read along its listings in the order it visits them: each from its own listing, a later entry from a later listing, no listing read twice |
| ListingFacts.GameStepFromListing | parser/parser/psn_parser.py:136-199 | the entry a listing adds carries that listing's title, badge and link |
| ListingFacts.ReadAlongFirst | parser/parser/psn_parser.py:135-199 | an entry read from the first listing visited, followed by entries read along the rest, is read along all of them |
| ListingFacts.ListingOfRecovers | parser/parser/psn_parser.py:136-147 | an entry read from a listing names that listing: its title, its badge text and the `href` its link was built from |
| ListingFacts.ReadAlongListed | parser/parser/psn_parser.py:135-199 | entries read along a page's listings come each from its own listing, and those listings, counted with repetition, are among the page's listings |
| ListingFacts.ListedOncePerListing | parser/parser/psn_parser.py:135-199 | at most one entry per listing: two new entries read from the same listing need that listing to appear twice on the page |
| RunFacts.PageStepFacts | parser/parser/psn_parser.py:108-206 | a page's fetches start from the session moved one `get_proxy` step when the page number is a multiple of `replace_proxy_count` and not moved otherwise; the page only appends entries that answer the detail requests it sent, for their own link and through the proxy they went out with; the counter rises by the number of requests sent; the session stays valid |
| ListingFacts.PageStepListed | parser/parser/psn_parser.py:109-199 | with a permuting shuffle, the entries a served page appends are each read from their own listing, and the listings they were read from, counted with repetition, are among the page's listings, so at most one entry per listing; an unserved page appends nothing |
| RunFacts.PageSkipped | parser/parser/psn_parser.py:109-125 | a page the store never serves adds nothing, sends no detail request, and moves the proxy once for the schedule plus once per attempt |
| RunFacts.RunFromFacts | parser/parser/psn_parser.py:108-208 | the rest of the run only appends entries that answer the detail requests sent from that page on, for their own link and through the proxy they went out with; the counter rises by the number of requests sent; the session stays valid |
| RunFacts.RunFromPageFacts | parser/parser/psn_parser.py:108-206 | the same for a page still to be visited: that page's requests, then those of the pages after it |
| RunFacts.RunEntriesHarvested | parser/parser/psn_parser.py:102-208 | a finished or crashed run sends as many detail requests as `discount_request_count` counts; every entry of `psn_games` is the store's answer to one of them, the request with that number having gone out for the entry's own link through one of the listed proxies; its prices are digit strings; the session is valid |
| RunFacts.HarvestedPrices | parser/parser/psn_parser.py:172-197 | the prices of an entry shown by a detail page are digit strings |
| RunFacts.RunWithoutRetries | parser/parser/psn_parser.py:112-125 | with `retry_attemps` 0 no request is sent and nothing is appended |
| RunFacts.ExtendsRefl | parser/parser/psn_parser.py:199 | a list that gains nothing extends itself over any stretch of requests |
| RunFacts.ExtendsAppend | parser/parser/psn_parser.py:199 | appending an answer to one of the requests extends the list over them |
| RunFacts.HarvestedBefore | parser/parser/psn_parser.py:152-156 | an answer to a request of one stretch stays an answer, under the same number, when later requests follow it |
| RunFacts.HarvestedAfter | parser/parser/psn_parser.py:152-156 | an answer to a request of a stretch stays an answer, under the same number, when earlier requests come before it |
| RunFacts.SentAtBefore | parser/parser/psn_parser.py:152-156 | a request keeps its number and its place when later requests follow its stretch |
| RunFacts.SentAtAfter | parser/parser/psn_parser.py:152-156 | a request keeps its number and its place when earlier requests are put in front of its stretch |
| RunFacts.ExtendsTrans | parser/parser/psn_parser.py:199 | entries appended over two consecutive stretches of detail requests were appended over the two together |
| ListingFacts.ArrangeKeepsListings | parser/parser/psn_parser.py:132-133 | a permuting shuffle visits the page's listings, each as often as it occurs |
| Driver.Parser.constructor | parser/parser/psn_parser.py:103-106 | empty list, first `get_proxy` from 0, counter 0, no file written |
| Driver.Parser.RotateProxy | parser/parser/psn_parser.py:110 | the fields take the next proxy and cursor |
| Driver.Parser.FetchCatalogPage | parser/parser/psn_parser.py:112-119 | the retry loop computes the page retry function, with at most `retry_attemps` attempts and one proxy move per failure |
| Driver.Parser.RequestDetail | parser/parser/psn_parser.py:152-156 | one detail attempt: the counter goes up by one, the proxy moves on a multiple, and the fetch uses the proxy after that |
| Driver.Parser.FetchDetailPage | parser/parser/psn_parser.py:149-157 | the retry loop computes the detail retry function; the counter goes up by the number of attempts; the proxy moves once per multiple reached |
| Driver.Parser.Record | parser/parser/psn_parser.py:199-202 | `psn_games` gains exactly the new entry at its end, and the file written holds the whole list |
| Driver.Parser.ProcessGame | parser/parser/psn_parser.py:135-202 | one turn of `for game in games` computes the listing step |
| Driver.Parser.ProcessGames | parser/parser/psn_parser.py:135-204 | `for game in games` computes the listings loop |
| Driver.Parser.ProcessPage | parser/parser/psn_parser.py:109-206 | one page computes the page step |
| Driver.Parser.AdvancePage | parser/parser/psn_parser.py:108-206 | one page advances the run by one step |
| Driver.Parser.Run | parser/parser/psn_parser.py:108-208 | the page loop computes the whole run |
| Driver.ScrapeStore | parser/parser/psn_parser.py:102-208 | `main` produces the run's list and exception; every entry is the store's answer to one of the detail requests the run sent, the request with that number having gone out for the entry's own link through one of the listed proxies, with digit-only prices; every file written holds the list as it stood after that append |

## Left out

- The HTTP requests of `fetch_game_data` and `fetch_discount_data` (lines 70-99) are oracles. A failed request and a status other than 200 are both `None`. The oracles are indexed by attempt number (pages) and by request number (details), because nothing else tells retries apart.
- The BeautifulSoup `find`/`find_all` lookups and their CSS classes (lines 127-186) are taken as already applied: a page is a record of optional fields.
- `float` (line 35) is modelled as an exact decimal (integer digits, fraction digits) with its exact real value. Binary rounding and the overflow of very long digit strings to `inf` are not modelled.
- `get_proxy_list` (lines 38-47) is not part of this model. The proxy list is an input, and its read failure is not modelled.
- The working-directory change and the configuration load (lines 11-17) are not modelled. The configuration is an immutable record.
- `PsnParser.ValidConfig`: `replace_proxy_count` must be at least 1. With 0, `i % 0` raises `ZeroDivisionError` at line 109, and that path is not modelled. Negative configuration values are not modelled either, because the counts are natural numbers.
- `json.dump` (lines 201-202) is modelled only as the sequence of lists written. File I/O and JSON encoding are left out.
- `asyncio.sleep` (line 204) is timing only and is left out.
- `random.shuffle` (line 133) is an oracle. The lemma about it assumes that it permutes.
- Logging (`logger` calls throughout) is left out.
- `str.isdigit` is modelled for ASCII digits only. Other Unicode digits are not recognised.
- `ProxyRotation.GetProxy`: `proxy_id` is a natural number. Python's negative indexing never occurs, because the driver only passes cursors it got back.
- Exceptions other than a missing HTML element and `float('.')` are not modelled (network errors are already `None`).

=== FILE: driver.dfy ===
/**
 * The driver `main` as it runs: one object holds the locals the loops update
 * in place, and each loop of `main` is a method proved against the function
 * of the `PsnParser` module that says what it computes.
 */
module Driver {
  import opened Wrappers
  import opened PriceCleaning
  import opened ProxyRotation
  import opened PsnParser
  import opened RunFacts

  class Parser {
    const config: Config
    const proxyList: seq<string>
    const upstream: Upstream

    var proxy: Option<string>
    var proxyId: nat
    var discountRequestCount: nat
    /** The scraped games, in the order they were appended. */
    var psnGames: seq<GameEntry>
    /** What each `json.dump` wrote to `psn_games.json`, oldest first. */
    var snapshots: seq<seq<GameEntry>>

    function CurrentSession(): Session
      reads this
    {
      Session(proxy, proxyId, discountRequestCount)
    }

    /** A usable configuration, a proxy under a valid cursor, and one snapshot per append, each the list as it then stood. */
    predicate Valid()
      reads this
    {
      && ValidConfig(config)
      && SessionValid(proxyList, CurrentSession())
      && |snapshots| == |psnGames|
      && forall k :: 0 <= k < |snapshots| ==> snapshots[k] == psnGames[..k + 1]
    }

    /** The set-up lines of `main`: an empty list, `get_proxy(proxy_list, 0)` and a zero request counter. */
    constructor (config: Config, proxyList: seq<string>, upstream: Upstream)
      requires ValidConfig(config)
      ensures Valid()
      ensures this.config == config && this.proxyList == proxyList && this.upstream == upstream
      ensures CurrentSession() == InitialSession(proxyList)
      ensures psnGames == [] && snapshots == []
    {
      this.config := config;
      this.proxyList := proxyList;
      this.upstream := upstream;
      var (p, id) := GetProxy(proxyList, 0);
      proxy := p;
      proxyId := id;
      discountRequestCount := 0;
      psnGames := [];
      snapshots := [];
    }

    /** `proxy, proxy_id = await get_proxy(proxy_list, proxy_id)`. */
    method RotateProxy()
      requires Valid()
      modifies this`proxy, this`proxyId
      ensures Valid()
      ensures CurrentSession() == Rotate(proxyList, old(CurrentSession()))
      ensures proxyId == Cycle(|proxyList|, old(proxyId), 1)
    {
      var (p, id) := GetProxy(proxyList, proxyId);
      proxy := p;
      proxyId := id;
    }

    /**
     * The page retry loop: at most `retry_attemps` fetches, giving up only
     * after all of them, with one proxy move per failed fetch.
     */
    method FetchCatalogPage(page: nat) returns (response: Option<CatalogPage>, attempts: nat)
      requires Valid()
      modifies this`proxy, this`proxyId
      ensures Valid()
      ensures (response, CurrentSession(), attempts) == PageRetry(config, proxyList, upstream, page, old(CurrentSession()), 0)
      ensures attempts <= config.retryAttempts && (response.None? ==> attempts == config.retryAttempts)
      ensures response.Some? ==> response == upstream.fetchGameData(page, proxy, attempts)
      ensures proxyId == Cycle(|proxyList|, old(proxyId), attempts)
    {
      PageRetryAccounting(config, proxyList, upstream, page, CurrentSession(), 0);
      response := None;
      attempts := 0;
      while response.None? && attempts < config.retryAttempts
        invariant Valid() && attempts <= config.retryAttempts
        invariant PageRetry(config, proxyList, upstream, page, old(CurrentSession()), 0)
          == if response.None? then PageRetry(config, proxyList, upstream, page, CurrentSession(), attempts)
             else (response, CurrentSession(), attempts)
        decreases config.retryAttempts - attempts, if response.None? then 1 else 0
      {
        response := upstream.fetchGameData(page, proxy, attempts);
        if response.None? {
          RotateProxy();
          attempts := attempts + 1;
        }
      }
    }

    /**
     * The detail retry loop: at most `retry_attemps` fetches, each counted,
     * with a proxy move exactly at the multiples of `replace_proxy_count`
     * the counter reaches.
     */
    method FetchDetailPage(link: string) returns (detail: Option<DetailPage>, attempts: nat)
      requires Valid()
      modifies this`proxy, this`proxyId, this`discountRequestCount
      ensures Valid()
      ensures (detail, CurrentSession(), attempts) == DetailRetry(config, proxyList, upstream, link, old(CurrentSession()), 0)
      ensures attempts <= config.retryAttempts && (detail.None? ==> attempts == config.retryAttempts)
      ensures discountRequestCount == old(discountRequestCount) + attempts
      ensures proxyId == Cycle(|proxyList|, old(proxyId),
        MultiplesIn(old(discountRequestCount), discountRequestCount, config.replaceProxyCount))
    {
      detail := None;
      attempts := 0;
      while detail.None? && attempts < config.retryAttempts
        invariant Valid() && attempts <= config.retryAttempts
        invariant DetailRetry(config, proxyList, upstream, link, old(CurrentSession()), 0)
          == if detail.None? then DetailRetry(config, proxyList, upstream, link, CurrentSession(), attempts)
             else (detail, CurrentSession(), attempts)
        decreases config.retryAttempts - attempts
      {
        ghost var before := CurrentSession();
        detail := RequestDetail(link);
        attempts := attempts + 1;
        DetailRetryStep(config, proxyList, upstream, link, before, attempts - 1);
      }
      DetailRetryAccounting(config, proxyList, upstream, link, old(CurrentSession()), 0);
    }

    /** One detail attempt: count it, move the proxy on a multiple of `replace_proxy_count`, fetch. */
    method RequestDetail(link: string) returns (detail: Option<DetailPage>)
      requires Valid()
      modifies this`proxy, this`proxyId, this`discountRequestCount
      ensures Valid()
      ensures CurrentSession() == CountRequest(config, proxyList, old(CurrentSession()))
      ensures detail == upstream.fetchDiscountData(link, proxy, discountRequestCount)
    {
      discountRequestCount := discountRequestCount + 1;
      if discountRequestCount % config.replaceProxyCount == 0 {
        RotateProxy();
      }
      detail := upstream.fetchDiscountData(link, proxy, discountRequestCount);
    }

    /** `psn_games.append(psn_game)` followed by the `json.dump` of the whole list. */
    method Record(entry: GameEntry)
      requires Valid()
      modifies this`psnGames, this`snapshots
      ensures Valid()
      ensures psnGames == old(psnGames) + [entry] && snapshots == old(snapshots) + [psnGames]
    {
      psnGames := psnGames + [entry];
      snapshots := snapshots + [psnGames];
      forall k | 0 <= k < |snapshots| - 1
        ensures snapshots[k] == psnGames[..k + 1]
      {
        assert psnGames[..k + 1] == old(psnGames)[..k + 1];
      }
    }

    /** One turn of `for game in games`. */
    method ProcessGame(g: Listing) returns (crash: Option<Crash>)
      requires Valid()
      modifies this`proxy, this`proxyId, this`discountRequestCount, this`psnGames, this`snapshots
      ensures Valid()
      ensures var (result, s) := GameStep(config, proxyList, upstream, g, old(CurrentSession()));
        && CurrentSession() == s
        && crash == (if result.Err? then Some(result.error) else None)
        && psnGames == old(psnGames) + (if result.Ok? && result.value.Some? then [result.value.value] else [])
    {
      if g.title.None? {
        return Some(MissingElement);
      }
      if g.discountBadge.None? {
        return None;
      }
      if g.href.None? {
        return Some(MissingElement);
      }
      var link := StoreOrigin + g.href.value;
      var detail, _ := FetchDetailPage(link);
      if detail.None? {
        return None;
      }
      match ReadDetail(g.title.value, g.discountBadge.value, link, detail.value)
      case Err(c) =>
        return Some(c);
      case Ok(None) =>
        return None;
      case Ok(Some(entry)) =>
        Record(entry);
        return None;
    }

    /** One turn of `for i in range(1, 244)`. */
    method ProcessPage(page: nat) returns (crash: Option<Crash>)
      requires Valid()
      modifies this`proxy, this`proxyId, this`discountRequestCount, this`psnGames, this`snapshots
      ensures Valid()
      ensures var o := PageStep(config, proxyList, upstream, page, old(CurrentSession()), old(psnGames));
        psnGames == o.entries && crash == o.crash && CurrentSession() == o.session
    {
      crash := None;
      if page % config.replaceProxyCount == 0 {
        RotateProxy();
      }
      var response, _ := FetchCatalogPage(page);
      if response.None? {
        return;
      }
      var games := response.value.games;
      if config.shuffleGame {
        games := upstream.shuffle(page, games);
      }
      crash := ProcessGames(games);
    }

    /** `for game in games`, stopping at the first exception. */
    method ProcessGames(games: seq<Listing>) returns (crash: Option<Crash>)
      requires Valid()
      modifies this`proxy, this`proxyId, this`discountRequestCount, this`psnGames, this`snapshots
      ensures Valid()
      ensures var o := GamesLoop(config, proxyList, upstream, games, old(CurrentSession()), old(psnGames));
        psnGames == o.entries && crash == o.crash && CurrentSession() == o.session
    {
      crash := None;
      for k := 0 to |games|
        invariant Valid() && crash.None?
        invariant GamesLoop(config, proxyList, upstream, games, old(CurrentSession()), old(psnGames))
          == GamesLoop(config, proxyList, upstream, games[k..], CurrentSession(), psnGames)
      {
        ghost var before, acc := CurrentSession(), psnGames;
        GamesLoopStep(config, proxyList, upstream, games, k, before, acc);
        crash := ProcessGame(games[k]);
        if crash.Some? {
          return;
        }
      }
      assert games[|games|..] == [];
    }

    /** One page, as one step of the run from that page on. */
    method AdvancePage(page: nat) returns (crash: Option<Crash>)
      requires Valid() && page <= LastPage
      modifies this`proxy, this`proxyId, this`discountRequestCount, this`psnGames, this`snapshots
      ensures Valid()
      ensures RunFrom(config, proxyList, upstream, page, old(CurrentSession()), old(psnGames))
        == if crash.None? then RunFrom(config, proxyList, upstream, page + 1, CurrentSession(), psnGames)
           else Outcome(psnGames, crash, CurrentSession())
    {
      RunFromStep(config, proxyList, upstream, page, CurrentSession(), psnGames);
      crash := ProcessPage(page);
    }

    /** The page loop of `main`, from the first page to the last or to the first exception. */
    method Run() returns (crash: Option<Crash>)
      requires Valid()
      modifies this`proxy, this`proxyId, this`discountRequestCount, this`psnGames, this`snapshots
      ensures Valid()
      ensures var o := RunFrom(config, proxyList, upstream, FirstPage, old(CurrentSession()), old(psnGames));
        psnGames == o.entries && crash == o.crash && CurrentSession() == o.session
    {
      ghost var target := RunFrom(config, proxyList, upstream, FirstPage, CurrentSession(), psnGames);
      crash := None;
      var page := FirstPage;
      while page <= LastPage && crash.None?
        invariant Valid() && FirstPage <= page <= LastPage + 1
        invariant target == if crash.None? then RunFrom(config, proxyList, upstream, page, CurrentSession(), psnGames)
                             else Outcome(psnGames, crash, CurrentSession())
      {
        crash := AdvancePage(page);
        page := page + 1;
      }
    }
  }

  /**
   * `main` from start to end: the games scraped, the files written, and the
   * exception that stopped it, if any. Every game is what the store's detail
   * page for its link showed, and every file written held the list as it stood.
   */
  method ScrapeStore(config: Config, proxyList: seq<string>, upstream: Upstream)
    returns (games: seq<GameEntry>, written: seq<seq<GameEntry>>, crash: Option<Crash>)
    requires ValidConfig(config)
    ensures games == Run(config, proxyList, upstream).entries && crash == Run(config, proxyList, upstream).crash
    ensures forall e :: e in games ==> Harvested(upstream, proxyList, RunRequests(config, proxyList, upstream), 0, e) && PricesAreDigits(e)
    ensures |written| == |games| && forall k :: 0 <= k < |written| ==> written[k] == games[..k + 1]
  {
    var parser := new Parser(config, proxyList, upstream);
    crash := parser.Run();
    games, written := parser.psnGames, parser.snapshots;
    RunEntriesHarvested(config, proxyList, upstream);
  }
}

=== FILE: listing_facts.dfy ===
/**
 * Which listings become entries: every entry a page appends is read from
 * one of its listings, in visiting order and at most one per listing, and
 * a permuting shuffle keeps that true of the page as served.
 */
module ListingFacts {
  import opened Wrappers
  import opened PsnParser
  import opened RunFacts

  /**
   * The listing an entry says it was read from: its title, its badge text and
   * the `href` its link was built from. A listing an entry was read from is
   * this one (`ListingOfRecovers`), so entries are told apart by listing.
   */
  function ListingOf(e: GameEntry): Listing {
    Listing(Some(e.title), Some(e.discount),
            if |StoreOrigin| <= |e.link| then Some(e.link[|StoreOrigin|..]) else None)
  }

  /** An entry read from listing `g` names `g` as its listing. */
  lemma ListingOfRecovers(e: GameEntry, g: Listing)
    requires FromListing(e, g)
    ensures g == ListingOf(e)
  {
    assert e.link[|StoreOrigin|..] == g.href.value;
  }

  /** The listings `es` were read from, in order. */
  function Sources(es: seq<GameEntry>): seq<Listing> {
    if es == [] then [] else [ListingOf(es[0])] + Sources(es[1..])
  }

  /** The `i`-th source is the listing of the `i`-th entry. */
  lemma {:induction false} SourcesAt(es: seq<GameEntry>, i: nat)
    requires i < |es|
    ensures |Sources(es)| == |es| && Sources(es)[i] == ListingOf(es[i])
  {
    if i > 0 {
      SourcesAt(es[1..], i - 1);
    } else {
      SourcesLength(es[1..]);
    }
  }

  /** One source per entry. */
  lemma {:induction false} SourcesLength(es: seq<GameEntry>)
    ensures |Sources(es)| == |es|
  {
    if es != [] {
      SourcesLength(es[1..]);
    }
  }

  /**
   * `es` is read along `games` in visiting order: each entry from its own
   * listing, later entries from later listings, and no listing read twice.
   */
  predicate ReadAlong(es: seq<GameEntry>, games: seq<Listing>)
    decreases |games|
  {
    if es == [] then true
    else if games == [] then false
    else (FromListing(es[0], games[0]) && ReadAlong(es[1..], games[1..])) || ReadAlong(es, games[1..])
  }

  /**
   * `entries` is `acc` followed by entries each read from its own listing,
   * and those listings, counted with repetition, are among `games`: at most
   * one entry per listing of the page, whatever order the listings were visited in.
   */
  ghost predicate Listed(games: seq<Listing>, acc: seq<GameEntry>, entries: seq<GameEntry>) {
    && |acc| <= |entries| && entries[..|acc|] == acc
    && (forall j :: |acc| <= j < |entries| ==> FromListing(entries[j], ListingOf(entries[j])))
    && multiset(Sources(entries[|acc|..])) <= multiset(games)
  }

  /**
   * At most one entry per listing: two new entries read from the same listing
   * need that listing to appear twice among `games`.
   */
  lemma ListedOncePerListing(games: seq<Listing>, acc: seq<GameEntry>, entries: seq<GameEntry>, i: nat, j: nat)
    requires Listed(games, acc, entries) && |acc| <= i < j < |entries| && ListingOf(entries[i]) == ListingOf(entries[j])
    ensures multiset(games)[ListingOf(entries[i])] >= 2
  {
    var src := Sources(entries[|acc|..]);
    var g := ListingOf(entries[i]);
    var a, b := i - |acc|, j - |acc|;
    SourcesAt(entries[|acc|..], a);
    SourcesAt(entries[|acc|..], b);
    assert src[a] == g && src[b] == g;
    assert src == src[..b] + src[b..];
    assert src[..b][a] == g && src[b..][0] == g;
    assert g in multiset(src[..b]) && g in multiset(src[b..]);
  }

  /**
   * The listings loop of a page appends entries read along its listings, in
   * the order it visits them, at most one per listing.
   */
  lemma {:induction false} GamesLoopFromListings(cfg: Config, proxies: seq<string>, up: Upstream, games: seq<Listing>, s: Session, acc: seq<GameEntry>)
    requires ValidConfig(cfg)
    ensures var entries := GamesLoop(cfg, proxies, up, games, s, acc).entries;
      |acc| <= |entries| && entries[..|acc|] == acc && ReadAlong(entries[|acc|..], games)
    decreases |games|
  {
    if games == [] {
      assert acc[..|acc|] == acc;
    } else {
      GameStepFromListing(cfg, proxies, up, games[0], s);
      var (result, s') := GameStep(cfg, proxies, up, games[0], s);
      if result.Err? {
        assert acc[..|acc|] == acc;
      } else {
        var acc' := if result.value.Some? then acc + [result.value.value] else acc;
        var entries := GamesLoop(cfg, proxies, up, games[1..], s', acc').entries;
        assert GamesLoop(cfg, proxies, up, games, s, acc).entries == entries;
        GamesLoopFromListings(cfg, proxies, up, games[1..], s', acc');
        if result.value.Some? {
          ReadAlongFirst(games, acc, result.value.value, entries);
        } else if entries[|acc|..] != [] {
          assert ReadAlong(entries[|acc|..], games[1..]);
        }
      }
    }
  }

  /** The entry a listing adds is read from that listing. */
  lemma GameStepFromListing(cfg: Config, proxies: seq<string>, up: Upstream, g: Listing, s: Session)
    requires ValidConfig(cfg)
    ensures var result := GameStep(cfg, proxies, up, g, s).0;
      result.Ok? && result.value.Some? ==> FromListing(result.value.value, g)
  {
  }

  /** An entry read from the first listing, then entries read along the others, are read along all of them. */
  lemma {:induction false} ReadAlongFirst(games: seq<Listing>, acc: seq<GameEntry>, e: GameEntry, entries: seq<GameEntry>)
    requires games != [] && FromListing(e, games[0])
    requires |acc| + 1 <= |entries| && entries[..|acc| + 1] == acc + [e] && ReadAlong(entries[|acc| + 1..], games[1..])
    ensures entries[..|acc|] == acc && ReadAlong(entries[|acc|..], games)
  {
    var es := entries[|acc|..];
    assert entries[..|acc|] == entries[..|acc| + 1][..|acc|];
    assert es[0] == entries[..|acc| + 1][|acc|] == e;
    assert es[1..] == entries[|acc| + 1..];
  }

  /** Entries read along `games` come from their own listings, and those listings are among `games`. */
  lemma {:induction false} ReadAlongListed(es: seq<GameEntry>, games: seq<Listing>)
    requires ReadAlong(es, games)
    ensures forall j :: 0 <= j < |es| ==> FromListing(es[j], ListingOf(es[j]))
    ensures multiset(Sources(es)) <= multiset(games)
    decreases |games|
  {
    if es != [] {
      assert games == [games[0]] + games[1..];
      if FromListing(es[0], games[0]) && ReadAlong(es[1..], games[1..]) {
        ReadAlongListed(es[1..], games[1..]);
        ListingOfRecovers(es[0], games[0]);
        assert Sources(es) == [games[0]] + Sources(es[1..]);
        forall j | 0 <= j < |es|
          ensures FromListing(es[j], ListingOf(es[j]))
        {
          if j > 0 {
            assert es[j] == es[1..][j - 1];
          }
        }
      } else {
        ReadAlongListed(es, games[1..]);
      }
    }
  }

  /**
   * When `random.shuffle` permutes, the entries a served page adds were each
   * read from one of that page's listings, at most one per listing; a page
   * the store did not serve adds nothing.
   */
  lemma {:induction false} PageStepListed(cfg: Config, proxies: seq<string>, up: Upstream, page: nat, s: Session, acc: seq<GameEntry>)
    requires ValidConfig(cfg) && ShufflePermutes(up)
    ensures var response := PageRetry(cfg, proxies, up, page, ScheduledRotation(cfg, proxies, page, s), 0).0;
      var o := PageStep(cfg, proxies, up, page, s, acc);
      && (response.None? ==> o.entries == acc)
      && (response.Some? ==> Listed(response.value.games, acc, o.entries))
  {
    var s1 := ScheduledRotation(cfg, proxies, page, s);
    ScheduledRotationMoves(cfg, proxies, page, s);
    PageRetryAccounting(cfg, proxies, up, page, s1, 0);
    var (response, s2, _) := PageRetry(cfg, proxies, up, page, s1, 0);
    if response.Some? {
      var games := response.value.games;
      var arranged := Arrange(cfg, up, page, games);
      var entries := GamesLoop(cfg, proxies, up, arranged, s2, acc).entries;
      GamesLoopFromListings(cfg, proxies, up, arranged, s2, acc);
      ArrangeKeepsListings(cfg, up, page, games);
      ReadAlongListed(entries[|acc|..], arranged);
      forall j | |acc| <= j < |entries|
        ensures FromListing(entries[j], ListingOf(entries[j]))
      {
        assert entries[j] == entries[|acc|..][j - |acc|];
      }
    }
  }

  /** `random.shuffle` reorders a page's listings without adding or losing any. */
  ghost predicate ShufflePermutes(up: Upstream) {
    forall page, games :: multiset(up.shuffle(page, games)) == multiset(games)
  }

  /** Under a permuting shuffle, the listings visited are those of the page. */
  lemma ArrangeKeepsListings(cfg: Config, up: Upstream, page: nat, games: seq<Listing>)
    requires ShufflePermutes(up)
    ensures multiset(Arrange(cfg, up, page, games)) == multiset(games)
  {
  }
}

=== FILE: pipeline.dfy ===
/**
 * What the driver `main` of the PlayStation Store parser computes, as functions
 * of its configuration, its proxy list and the answers of the store.
 *
 * The store is an oracle: a catalog page fetch, a detail page fetch and the
 * shuffle of a page's listings are functions of everything that identifies
 * the request, so retries may see different answers. HTML lookups are already
 * applied: a listing or a detail page is a record of optional fields.
 */
module PsnParser {
  import opened Wrappers
  import opened PyString
  import opened PriceCleaning
  import opened ProxyRotation

  const StoreOrigin: string := "https://store.playstation.com"
  /** `range(1, 244)`: the catalog pages visited, in order. */
  const FirstPage: nat := 1
  const LastPage: nat := 243

  /** The keys of `parser_config.json` the driver reads (the misspelled `retry_attemps` included). */
  datatype Config = Config(replaceProxyCount: nat, retryAttempts: nat, shuffleGame: bool)

  /** `i % replace_proxy_count` must not divide by zero. */
  predicate ValidConfig(cfg: Config) {
    cfg.replaceProxyCount >= 1
  }

  /** A game tile of a catalog page: its title span, its discount badge span and its link's `href`. */
  datatype Listing = Listing(title: Option<string>, discountBadge: Option<string>, href: Option<string>)

  /** A catalog page that answered with status 200: its game tiles in page order. */
  datatype CatalogPage = CatalogPage(games: seq<Listing>)

  /** A detail page that answered with status 200: the texts of its expiry, original price and final price spans. */
  datatype DetailPage = DetailPage(discountExpire: Option<string>, originalPrice: Option<string>, finalPrice: Option<string>)

  /**
   * The store as the driver sees it. `fetchGameData(page, proxy, attempt)` and
   * `fetchDiscountData(link, proxy, requestNumber)` give `None` for a failed
   * request or a status other than 200; `shuffle(page, games)` is `random.shuffle`.
   */
  datatype Upstream = Upstream(
    fetchGameData: (nat, Option<string>, nat) -> Option<CatalogPage>,
    fetchDiscountData: (string, Option<string>, nat) -> Option<DetailPage>,
    shuffle: (nat, seq<Listing>) -> seq<Listing>)

  /** One element of `psn_games`; prices are the exact decimals `float` would round. */
  datatype GameEntry = GameEntry(
    title: string, discount: string, oldPrice: Decimal, newPrice: Decimal, discountExpire: string, link: string)

  /** The exceptions that end a run: `.text` or `['href']` on a missing element, and `float('.')`. */
  datatype Crash = MissingElement | PriceValueError(error: PriceError)

  /** The driver's mutable locals besides `psn_games`. */
  datatype Session = Session(proxy: Option<string>, proxyId: nat, discountRequests: nat)

  /** Where a stretch of the run ends: the list built, the exception if one escaped, the session. */
  datatype Outcome = Outcome(entries: seq<GameEntry>, crash: Option<Crash>, session: Session)

  /** The proxy the session holds is the stripped entry under a valid cursor. */
  predicate SessionValid(proxies: seq<string>, s: Session) {
    ValidCursor(proxies, s.proxyId) && s.proxy == ProxyAt(proxies, s.proxyId)
  }

  /** `proxy, proxy_id = await get_proxy(proxy_list, proxy_id)`. */
  function Rotate(proxies: seq<string>, s: Session): (r: Session)
    ensures SessionValid(proxies, r)
    ensures r.proxyId == Cycle(|proxies|, s.proxyId, 1) && r.discountRequests == s.discountRequests
  {
    var (proxy, id) := GetProxy(proxies, s.proxyId);
    s.(proxy := proxy, proxyId := id)
  }

  /** The state before the first page: `get_proxy(proxy_list, 0)` and no detail request yet. */
  function InitialSession(proxies: seq<string>): (r: Session)
    ensures SessionValid(proxies, r) && r.discountRequests == 0
    ensures r.proxyId == (if |proxies| <= 1 then 0 else 1)
  {
    var (proxy, id) := GetProxy(proxies, 0);
    Session(proxy, id, 0)
  }

  /**
   * The page retry loop from attempt `attempts` on: fetch through the current
   * proxy, and after a failure move to the next proxy before trying again.
   * Gives the response, the session and the final attempt counter.
   */
  function PageRetry(cfg: Config, proxies: seq<string>, up: Upstream, page: nat, s: Session, attempts: nat)
    : (Option<CatalogPage>, Session, nat)
    decreases cfg.retryAttempts - attempts
  {
    if attempts >= cfg.retryAttempts then (None, s, attempts)
    else
      match up.fetchGameData(page, s.proxy, attempts)
      case Some(p) => (Some(p), s, attempts)
      case None => PageRetry(cfg, proxies, up, page, Rotate(proxies, s), attempts + 1)
  }

  /**
   * `discount_request_count += 1`, then `get_proxy` when the new count is a
   * multiple of `replace_proxy_count`: the proxy moves on exactly then.
   */
  function CountRequest(cfg: Config, proxies: seq<string>, s: Session): (r: Session)
    requires ValidConfig(cfg)
    ensures r.discountRequests == s.discountRequests + 1
    ensures r.proxyId == Cycle(|proxies|, s.proxyId, if r.discountRequests % cfg.replaceProxyCount == 0 then 1 else 0)
    ensures SessionValid(proxies, s) ==> SessionValid(proxies, r)
  {
    var counted := s.(discountRequests := s.discountRequests + 1);
    if counted.discountRequests % cfg.replaceProxyCount == 0 then Rotate(proxies, counted) else counted
  }

  /**
   * The detail retry loop from attempt `attempts` on: count the request (and
   * move the proxy on a multiple), fetch, and stop at the first answer.
   */
  function DetailRetry(cfg: Config, proxies: seq<string>, up: Upstream, link: string, s: Session, attempts: nat)
    : (Option<DetailPage>, Session, nat)
    requires ValidConfig(cfg)
    decreases cfg.retryAttempts - attempts
  {
    if attempts >= cfg.retryAttempts then (None, s, attempts)
    else
      var s' := CountRequest(cfg, proxies, s);
      match up.fetchDiscountData(link, s'.proxy, s'.discountRequests)
      case Some(d) => (Some(d), s', attempts + 1)
      case None => DetailRetry(cfg, proxies, up, link, s', attempts + 1)
  }

  /** The entry `e` is what detail page `d` says: its expiry text and both cleaned prices. */
  predicate DetailShows(d: DetailPage, e: GameEntry) {
    && d.discountExpire == Some(e.discountExpire)
    && d.originalPrice.Some? && CleanPrice(d.originalPrice.value) == Ok(e.oldPrice)
    && d.finalPrice.Some? && CleanPrice(d.finalPrice.value) == Ok(e.newPrice)
  }

  /**
   * What the driver makes of a detail page once it has one: nothing without
   * an expiry span, an exception for a missing or unreadable price, and an
   * entry otherwise.
   */
  function ReadDetail(title: string, discount: string, link: string, d: DetailPage)
    : (r: Result<Option<GameEntry>, Crash>)
    ensures r == Ok(None) <==> d.discountExpire.None?
    ensures r.Err? <==>
      && d.discountExpire.Some?
      && (|| d.originalPrice.None? || CleanPrice(d.originalPrice.value).Err?
          || d.finalPrice.None? || CleanPrice(d.finalPrice.value).Err?)
    ensures r.Ok? && r.value.Some? ==>
      var e := r.value.value;
      e.title == title && e.discount == discount && e.link == link && DetailShows(d, e)
  {
    if d.discountExpire.None? then Ok(None)
    else if d.originalPrice.None? then Err(MissingElement)
    else
      match CleanPrice(d.originalPrice.value)
      case Err(error) => Err(PriceValueError(error))
      case Ok(oldPrice) =>
        if d.finalPrice.None? then Err(MissingElement)
        else
          match CleanPrice(d.finalPrice.value)
          case Err(error) => Err(PriceValueError(error))
          case Ok(newPrice) =>
            Ok(Some(GameEntry(title, discount, oldPrice, newPrice, d.discountExpire.value, link)))
  }

  /** The body of `for game in games`: the entry it appends, if any, or the exception it raises. */
  function GameStep(cfg: Config, proxies: seq<string>, up: Upstream, g: Listing, s: Session)
    : (Result<Option<GameEntry>, Crash>, Session)
    requires ValidConfig(cfg)
  {
    if g.title.None? then (Err(MissingElement), s)
    else if g.discountBadge.None? then (Ok(None), s)
    else if g.href.None? then (Err(MissingElement), s)
    else
      var link := StoreOrigin + g.href.value;
      var (detail, s', _) := DetailRetry(cfg, proxies, up, link, s, 0);
      if detail.None? then (Ok(None), s')
      else (ReadDetail(g.title.value, g.discountBadge.value, link, detail.value), s')
  }

  /** `for game in games`, appending to `acc`, until the listings run out or an exception escapes. */
  function GamesLoop(cfg: Config, proxies: seq<string>, up: Upstream, games: seq<Listing>, s: Session, acc: seq<GameEntry>)
    : Outcome
    requires ValidConfig(cfg)
    decreases |games|
  {
    if games == [] then Outcome(acc, None, s)
    else
      var (result, s') := GameStep(cfg, proxies, up, games[0], s);
      match result
      case Err(c) => Outcome(acc, Some(c), s')
      case Ok(None) => GamesLoop(cfg, proxies, up, games[1..], s', acc)
      case Ok(Some(e)) => GamesLoop(cfg, proxies, up, games[1..], s', acc + [e])
  }

  /** The listings in the order they are visited. */
  function Arrange(cfg: Config, up: Upstream, page: nat, games: seq<Listing>): seq<Listing> {
    if cfg.shuffleGame then up.shuffle(page, games) else games
  }

  /**
   * `get_proxy` when the page number is a multiple of `replace_proxy_count`:
   * the proxy moves one step on exactly those pages and stays put on the others.
   */
  function ScheduledRotation(cfg: Config, proxies: seq<string>, page: nat, s: Session): Session
    requires ValidConfig(cfg)
  {
    if page % cfg.replaceProxyCount == 0 then Rotate(proxies, s) else s
  }

  /** The scheduled move is one `get_proxy` step on a multiple and none otherwise; the counter is untouched. */
  lemma ScheduledRotationMoves(cfg: Config, proxies: seq<string>, page: nat, s: Session)
    requires ValidConfig(cfg)
    ensures var r := ScheduledRotation(cfg, proxies, page, s);
      && r.proxyId == Cycle(|proxies|, s.proxyId, if page % cfg.replaceProxyCount == 0 then 1 else 0)
      && r.proxy == (if page % cfg.replaceProxyCount == 0 then ProxyAt(proxies, r.proxyId) else s.proxy)
      && r.discountRequests == s.discountRequests
      && (SessionValid(proxies, s) ==> SessionValid(proxies, r))
  {
  }

  /** One turn of `for i in range(1, 244)`: scheduled rotation, page retries, then the listings. */
  function PageStep(cfg: Config, proxies: seq<string>, up: Upstream, page: nat, s: Session, acc: seq<GameEntry>)
    : Outcome
    requires ValidConfig(cfg)
  {
    var (response, s2, _) := PageRetry(cfg, proxies, up, page, ScheduledRotation(cfg, proxies, page, s), 0);
    if response.None? then Outcome(acc, None, s2)
    else GamesLoop(cfg, proxies, up, Arrange(cfg, up, page, response.value.games), s2, acc)
  }

  /** The pages from `page` to the last one, stopping at the first exception. */
  function RunFrom(cfg: Config, proxies: seq<string>, up: Upstream, page: nat, s: Session, acc: seq<GameEntry>)
    : Outcome
    requires ValidConfig(cfg)
    decreases LastPage + 1 - page
  {
    if page > LastPage then Outcome(acc, None, s)
    else
      var o := PageStep(cfg, proxies, up, page, s, acc);
      if o.crash.Some? then o else RunFrom(cfg, proxies, up, page + 1, o.session, o.entries)
  }

  /** A whole run of `main`. */
  function Run(cfg: Config, proxies: seq<string>, up: Upstream): Outcome
    requires ValidConfig(cfg)
  {
    RunFrom(cfg, proxies, up, FirstPage, InitialSession(proxies), [])
  }
}

=== FILE: price.dfy ===
/**
 * `clean_price`: turns a Turkish-lira price label such as "1.299,90 TL"
 * into the text handed to `float`, and that text into an exact decimal.
 */
module PriceCleaning {
  import opened Wrappers
  import opened PyString

  /** The no-break space the store puts between amount and currency. */
  const NoBreakSpace: char := '\U{A0}'
  /** The currency code removed from every label. */
  const Currency: string := "TL"

  /**
   * The text built just before `float(...)`: only digits when no separator
   * survived, or digits, one '.', digits.
   */
  datatype Cleaned = Whole(digits: string) | Split(integerPart: string, decimalPart: string)

  /** An exact decimal number: integer digits and fraction digits. */
  datatype Decimal = Decimal(integerDigits: string, fractionDigits: string)

  /** `float` rejects the text: the only text it can be handed here and reject is ".". */
  datatype PriceError = ValueError(text: string)

  /** The text `cleaned_price` holds at the end of the `if`/`else`. */
  function Render(c: Cleaned): string {
    match c
    case Whole(d) => d
    case Split(i, f) => i + "." + f
  }

  /** ASCII digits and at most one '.': the shape of every cleaned price. */
  predicate IsDecimalText(s: string) {
    && (forall i :: 0 <= i < |s| ==> IsDigit(s[i]) || s[i] == '.')
    && (forall i, j :: 0 <= i < j < |s| && s[i] == '.' ==> s[j] != '.')
  }

  /** Every part of a cleaned price is made of ASCII digits only. */
  predicate DigitParts(c: Cleaned) {
    match c
    case Whole(d) => AllDigits(d)
    case Split(i, f) => AllDigits(i) && AllDigits(f)
  }

  /** The chained `replace` calls and `strip` that open `clean_price`. */
  function Stripped(priceStr: string): (r: string)
    ensures '.' !in r
  {
    var s := Remove(RemoveSubstring(Remove(priceStr, NoBreakSpace), Currency), '.');
    StripKeeps(s);
    Strip(s)
  }

  /** `clean_price` up to, but not including, the `float` conversion. */
  function Clean(priceStr: string): (r: Cleaned)
    ensures DigitParts(r)
    ensures IsDecimalText(Render(r))
  {
    var t := Replace(Stripped(priceStr), ',', '.');
    if '.' in t then
      var (integerPart, decimalPart) := SplitOnce(t, '.');
      DigitsAreDigits(integerPart);
      DigitsAreDigits(decimalPart);
      var r := Split(Digits(integerPart), Digits(decimalPart));
      assert IsDecimalText(Render(r)) by { SplitShape(r.integerPart, r.decimalPart); }
      r
    else
      DigitsAreDigits(t);
      Whole(Digits(t))
  }

  /** `float(cleaned_price) if cleaned_price else 0.0`, with the value kept exact. */
  function CleanPrice(priceStr: string): (r: Result<Decimal, PriceError>)
    ensures r.Err? <==> Render(Clean(priceStr)) == "."
    ensures r.Err? ==> r.error == ValueError(".")
    ensures r == Ok(Decimal("", "")) <==> Render(Clean(priceStr)) == ""
    ensures r.Ok? ==> AllDigits(r.value.integerDigits) && AllDigits(r.value.fractionDigits)
  {
    var c := Clean(priceStr);
    assert |Render(c)| == if c.Whole? then |c.digits| else |c.integerPart| + |c.decimalPart| + 1;
    match c
    case Whole(d) =>
      assert |d| == 1 ==> IsDigit(d[0]);
      Ok(Decimal(d, ""))
    case Split(i, f) => if i == [] && f == [] then Err(ValueError(".")) else Ok(Decimal(i, f))
  }

  // The exact value of a decimal, standing in for Python's float.

  function DigitValue(c: char): nat
    requires IsDigit(c)
  {
    (c as int) - ('0' as int)
  }

  /** The natural number a string of digits denotes. */
  function NumberValue(s: string): nat
    requires AllDigits(s)
  {
    if s == [] then 0 else DigitValue(s[0]) * Pow10(|s| - 1) + NumberValue(s[1..])
  }

  function Pow10(n: nat): (r: nat)
    ensures r >= 1
  {
    if n == 0 then 1 else 10 * Pow10(n - 1)
  }

  function Value(d: Decimal): real
    requires AllDigits(d.integerDigits) && AllDigits(d.fractionDigits)
  {
    NumberValue(d.integerDigits) as real + NumberValue(d.fractionDigits) as real / Pow10(|d.fractionDigits|) as real
  }

  /** `10^(x + y) == 10^x * 10^y`. */
  lemma {:induction false} Pow10Add(x: nat, y: nat)
    ensures Pow10(x + y) == Pow10(x) * Pow10(y)
  {
    if x > 0 {
      Pow10Add(x - 1, y);
      assert Pow10(x + y) == 10 * Pow10(x - 1 + y);
    }
  }

  /** Reading `a + b` as a number shifts `a` left by the length of `b`. */
  lemma {:induction false} NumberValueAppend(a: string, b: string)
    requires AllDigits(a) && AllDigits(b)
    ensures AllDigits(a + b)
    ensures NumberValue(a + b) == NumberValue(a) * Pow10(|b|) + NumberValue(b)
  {
    if a == [] {
      assert a + b == b;
    } else {
      var ab := a + b;
      assert ab[0] == a[0] && ab[1..] == a[1..] + b;
      assert AllDigits(a[1..]);
      NumberValueAppend(a[1..], b);
      Pow10Add(|a| - 1, |b|);
      var d, p1, pb, x := DigitValue(a[0]), Pow10(|a| - 1), Pow10(|b|), NumberValue(a[1..]);
      assert NumberValue(ab) == d * (p1 * pb) + (x * pb + NumberValue(b));
      Regroup(d, p1, pb, x);
    }
  }

  /** A number of `n` digits is below `10^n`. */
  lemma {:induction false} NumberValueBound(s: string)
    requires AllDigits(s)
    ensures NumberValue(s) < Pow10(|s|)
  {
    if s != [] {
      assert AllDigits(s[1..]);
      NumberValueBound(s[1..]);
      LeadingDigit(DigitValue(s[0]), Pow10(|s| - 1), NumberValue(s[1..]));
    }
  }

  /** A decimal's value is all its digits read as one number, scaled down by its fraction length. */
  lemma ValueAsScaled(d: Decimal)
    requires AllDigits(d.integerDigits) && AllDigits(d.fractionDigits)
    ensures AllDigits(d.integerDigits + d.fractionDigits)
    ensures Value(d) == NumberValue(d.integerDigits + d.fractionDigits) as real / Pow10(|d.fractionDigits|) as real
  {
    NumberValueAppend(d.integerDigits, d.fractionDigits);
    ScaledDecimal(NumberValue(d.integerDigits + d.fractionDigits), NumberValue(d.integerDigits),
                  NumberValue(d.fractionDigits), Pow10(|d.fractionDigits|));
  }

  /** The fraction digits add less than one: a decimal's value lies between its integer part and the next integer. */
  lemma ValueBetween(d: Decimal)
    requires AllDigits(d.integerDigits) && AllDigits(d.fractionDigits)
    ensures NumberValue(d.integerDigits) as real <= Value(d) < NumberValue(d.integerDigits) as real + 1.0
  {
    NumberValueBound(d.fractionDigits);
    ProperFraction(NumberValue(d.fractionDigits) as real, Pow10(|d.fractionDigits|) as real);
  }

  // Arithmetic helpers.

  lemma Regroup(d: int, p1: int, pb: int, x: int)
    ensures d * (p1 * pb) + x * pb == (d * p1 + x) * pb
  {
  }

  lemma LeadingDigit(d: int, p: int, x: int)
    requires 0 <= d <= 9 && 0 <= x < p
    ensures d * p + x < 10 * p
  {
  }

  lemma ScaledDecimal(n: nat, i: nat, f: nat, p: nat)
    requires p > 0 && n == i * p + f
    ensures i as real + f as real / p as real == n as real / p as real
  {
    CastScaled(n, i, p, f);
    Scale(n as real, i as real, f as real, p as real);
  }

  lemma CastScaled(n: int, i: int, p: int, f: int)
    requires n == i * p + f
    ensures n as real == i as real * p as real + f as real
  {
  }

  lemma Scale(n: real, i: real, f: real, p: real)
    requires p > 0.0 && n == i * p + f
    ensures n / p == i + f / p
  {
  }

  lemma ProperFraction(f: real, p: real)
    requires 0.0 <= f < p
    ensures 0.0 <= f / p < 1.0
  {
  }

  // What clean_price computes, stated directly on its input.

  /**
   * The reference reading of a price label: with a comma, the digits before
   * the first comma, a '.', and the digits after it; without one, all its digits.
   */
  function Reference(priceStr: string): Cleaned {
    if ',' in priceStr then
      var (before, after) := SplitOnce(priceStr, ',');
      Split(Digits(before), Digits(after))
    else
      Whole(Digits(priceStr))
  }

  /** Thousands dots, the currency code, no-break spaces and padding are all invisible: clean_price reads the reference. */
  lemma {:induction false} CleanIsReference(priceStr: string)
    ensures Clean(priceStr) == Reference(priceStr)
  {
    var s := Stripped(priceStr);
    SignatureOfStripped(priceStr);
    DotSeparatorIsComma(s);
    ReferenceBySignature(s);
    ReferenceBySignature(priceStr);
  }

  /** The cleaned text is "." (and `float` raises) exactly when the label has a comma and no digit. */
  lemma {:induction false} CleanPriceFailsExactly(priceStr: string)
    ensures CleanPrice(priceStr).Err? <==> ',' in priceStr && Digits(priceStr) == []
  {
    CleanIsReference(priceStr);
    if ',' in priceStr {
      var parts := SplitOnce(priceStr, ',');
      var db, da := Digits(parts.0), Digits(parts.1);
      assert Clean(priceStr) == Split(db, da);
      DigitsAroundSeparator(parts.0, ',', parts.1);
      assert |Render(Split(db, da))| == |db| + |da| + 1;
    } else {
      assert Clean(priceStr).Whole?;
    }
  }

  /** Without a comma the price is the label's digits, read as an integer; no digits at all reads as 0.0. */
  lemma {:induction false} CleanPriceWithoutComma(priceStr: string)
    requires ',' !in priceStr
    ensures CleanPrice(priceStr) == Ok(Decimal(Digits(priceStr), ""))
    ensures Value(Decimal(Digits(priceStr), "")) == NumberValue(Digits(priceStr)) as real
  {
    CleanIsReference(priceStr);
    DigitsAreDigits(priceStr);
    assert Clean(priceStr) == Whole(Digits(priceStr));
  }

  /** A comma with at least one digit around it: the price is the digits before it, point, the digits after it. */
  lemma {:induction false} CleanPriceAtComma(before: string, after: string)
    requires ',' !in before
    requires Digits(before) != [] || Digits(after) != []
    ensures CleanPrice(before + [','] + after) == Ok(Decimal(Digits(before), Digits(after)))
  {
    SplitAtFirst(before, ',', after);
    CleanIsReference(before + [','] + after);
  }

  /**
   * A label made of digits and thousands dots, a decimal comma, fraction
   * digits and a trailer without digits or commas (such as " TL") cleans to
   * the mathematically equal decimal.
   */
  lemma {:induction false} ThousandsAndDecimalComma(whole: string, fraction: string, trailer: string)
    requires forall i :: 0 <= i < |whole| ==> IsDigit(whole[i]) || whole[i] == '.'
    requires AllDigits(fraction)
    requires forall i :: 0 <= i < |trailer| ==> !Matches(DigitOrComma, trailer[i])
    requires Digits(whole) != [] || fraction != []
    ensures CleanPrice(whole + "," + fraction + trailer) == Ok(Decimal(Digits(whole), fraction))
    ensures Value(Decimal(Digits(whole), fraction))
         == NumberValue(Digits(whole) + fraction) as real / Pow10(|fraction|) as real
  {
    DigitsAreDigits(whole);
    ValueAsScaled(Decimal(Digits(whole), fraction));
    var tail := fraction + trailer;
    assert whole + "," + fraction + trailer == whole + [','] + tail;
    assert forall k :: 0 <= k < |whole| ==> whole[k] != ',';
    FilterAppend(fraction, trailer, Digit);
    AllDigitsFilter(fraction);
    NoDigitsFilter(trailer);
    assert Digits(tail) == fraction;
    CleanPriceAtComma(whole, tail);
  }

  /** The store's own label: thousands dot, decimal comma, currency. */
  lemma {:induction false} ExampleThousands()
    ensures CleanPrice("1.299,90 TL") == Ok(Decimal("1299", "90"))
  {
    ThousandsLabelParts();
    LabelAtComma("1.299", "90 TL", "1299", "90");
  }

  /** The two prices of a detail page. */
  lemma {:induction false} ExampleDetailPrices()
    ensures CleanPrice("499,00 TL") == Ok(Decimal("499", "00"))
    ensures CleanPrice("249,50 TL") == Ok(Decimal("249", "50"))
  {
    OriginalPriceLabelParts();
    LabelAtComma("499", "00 TL", "499", "00");
    FinalPriceLabelParts();
    LabelAtComma("249", "50 TL", "249", "50");
  }

  /** An empty label and a bare currency code read 0.0; a bare comma makes `float` raise. */
  lemma {:induction false} ExampleEdges()
    ensures CleanPrice("") == Ok(Decimal("", "")) && CleanPrice("TL") == Ok(Decimal("", ""))
    ensures CleanPrice(",") == Err(ValueError("."))
  {
    EdgeLabelParts();
    CleanPriceWithoutComma("");
    CleanPriceWithoutComma("TL");
    CleanPriceFailsExactly(",");
  }

  /** The values of the decimals above: 1299.90, 499.0, 249.5 and 0.0. */
  lemma {:induction false} ExampleValues()
    ensures Value(Decimal("1299", "90")) == 1299.9
    ensures Value(Decimal("499", "00")) == 499.0
    ensures Value(Decimal("249", "50")) == 249.5
    ensures Value(Decimal("", "")) == 0.0
  {
  }

  // Helper lemmas.

  lemma {:induction false} ThousandsLabelParts()
    ensures ',' !in "1.299" && "1.299" + [','] + "90 TL" == "1.299,90 TL"
    ensures Digits("1.299") == "1299" && Digits("90 TL") == "90"
  {
    assert Digits("1.299") == "1299";
  }

  lemma {:induction false} OriginalPriceLabelParts()
    ensures ',' !in "499" && "499" + [','] + "00 TL" == "499,00 TL"
    ensures Digits("499") == "499" && Digits("00 TL") == "00"
  {
    assert Digits("499") == "499";
  }

  lemma {:induction false} FinalPriceLabelParts()
    ensures ',' !in "249" && "249" + [','] + "50 TL" == "249,50 TL"
    ensures Digits("249") == "249" && Digits("50 TL") == "50"
  {
    assert Digits("249") == "249";
  }

  lemma {:induction false} EdgeLabelParts()
    ensures ',' !in "" && Digits("") == ""
    ensures ',' !in "TL" && Digits("TL") == ""
    ensures ',' in "," && Digits(",") == ""
  {
  }

  lemma {:induction false} LabelAtComma(before: string, after: string, i: string, f: string)
    requires ',' !in before && Digits(before) == i && Digits(after) == f && i != []
    ensures CleanPrice(before + [','] + after) == Ok(Decimal(i, f))
  {
    CleanPriceAtComma(before, after);
  }

  lemma {:induction false} DigitsAroundSeparator(before: string, sep: char, after: string)
    requires !IsDigit(sep)
    ensures Digits(before + [sep] + after) == Digits(before) + Digits(after)
  {
    FilterDropsSeparator(before, sep, after, Digit);
  }

  lemma {:induction false} SplitShape(i: string, f: string)
    requires AllDigits(i) && AllDigits(f)
    ensures IsDecimalText(i + "." + f)
  {
    var s := i + "." + f;
    assert forall k :: 0 <= k < |s| && k != |i| ==> IsDigit(s[k]) by {
      assert forall k :: 0 <= k < |i| ==> s[k] == i[k];
      assert forall k :: |i| < k < |s| ==> s[k] == f[k - |i| - 1];
    }
  }

  lemma {:induction false} AllDigitsFilter(s: string)
    requires AllDigits(s)
    ensures Digits(s) == s
  {
    if s != [] {
      AllDigitsFilter(s[1..]);
    }
  }

  lemma {:induction false} NoDigitsFilter(s: string)
    requires forall i :: 0 <= i < |s| ==> !Matches(DigitOrComma, s[i])
    ensures Digits(s) == []
  {
    if s != [] {
      NoDigitsFilter(s[1..]);
    }
  }

  /** The opening replaces and strip drop nothing but characters that are neither digits nor commas. */
  lemma {:induction false} SignatureOfStripped(priceStr: string)
    ensures Filter(Stripped(priceStr), DigitOrComma) == Filter(priceStr, DigitOrComma)
    ensures ',' in Stripped(priceStr) <==> ',' in priceStr
  {
    var s1 := Remove(priceStr, NoBreakSpace);
    var s2 := RemoveSubstring(s1, Currency);
    var s3 := Remove(s2, '.');
    FilterRemove(priceStr, NoBreakSpace, DigitOrComma);
    assert Filter(Currency, DigitOrComma) == [] by {
      assert Currency[1..][1..] == [];
    }
    FilterRemoveSubstring(s1, Currency, DigitOrComma);
    FilterRemove(s2, '.', DigitOrComma);
    FilterStrip(s3, DigitOrComma);
    FilterKeeps(Stripped(priceStr), DigitOrComma);
    FilterKeeps(priceStr, DigitOrComma);
  }

  /** With no '.' in `s`, turning commas into dots and splitting on the first dot reads the reference. */
  lemma {:induction false} DotSeparatorIsComma(s: string)
    requires '.' !in s
    ensures var t := Replace(s, ',', '.');
      ('.' in t <==> ',' in s)
      && ('.' in t ==> Split(Digits(SplitOnce(t, '.').0), Digits(SplitOnce(t, '.').1)) == Reference(s))
      && ('.' !in t ==> Whole(Digits(t)) == Reference(s))
  {
    ReplacedIn(s, ',', '.');
    FilterReplace(s, ',', '.', Digit);
    if ',' in s {
      var (before, after) := SplitOnce(s, ',');
      assert s == before + [','] + after;
      var rb, ra := Replace(before, ',', '.'), Replace(after, ',', '.');
      ReplaceAppend(before + [','], after, ',', '.');
      ReplaceAppend(before, [','], ',', '.');
      assert Replace([','], ',', '.') == ['.'];
      assert '.' !in before;
      ReplacedIn(before, ',', '.');
      SplitAtFirst(rb, '.', ra);
      FilterReplace(before, ',', '.', Digit);
      FilterReplace(after, ',', '.', Digit);
    }
  }

  /** The reference reading sees only digits and commas. */
  lemma {:induction false} ReferenceBySignature(s: string)
    ensures Reference(s) == Reference(Filter(s, DigitOrComma))
  {
    var sig := Filter(s, DigitOrComma);
    FilterKeeps(s, DigitOrComma);
    FilterFilter(s, DigitOrComma, Digit);
    if ',' in s {
      FilterSplitOnce(s, ',', DigitOrComma);
      var (before, after) := SplitOnce(s, ',');
      FilterFilter(before, DigitOrComma, Digit);
      FilterFilter(after, DigitOrComma, Digit);
    }
  }
}

=== FILE: proxy.dfy ===
/**
 * The proxy cursor of the parser: `get_proxy` walks round-robin over the
 * lines of the proxy file, and the driver calls it on a schedule.
 */
module ProxyRotation {
  import opened Wrappers
  import opened PyString

  /** A cursor the parser can hold: 0 for an empty list, an index otherwise. */
  predicate ValidCursor(proxies: seq<string>, id: nat) {
    if proxies == [] then id == 0 else id < |proxies|
  }

  /** The proxy a valid cursor designates, as `get_proxy` hands it out (stripped). */
  function ProxyAt(proxies: seq<string>, id: nat): Option<string>
    requires ValidCursor(proxies, id)
  {
    if proxies == [] then None else Some(Strip(proxies[id]))
  }

  /**
   * The cursor step of `get_proxy` over a list of `n` proxies: stay at 0 on an
   * empty list, otherwise move one place on, wrapping to the first entry from
   * the last one or from beyond the end.
   */
  function NextCursor(n: nat, id: nat): (r: nat)
    ensures n == 0 ==> r == 0
    ensures n > 0 ==> r < n
  {
    if n == 0 || id >= n - 1 then 0 else id + 1
  }

  /** `get_proxy(proxy_list, proxy_id)`: the next cursor and the proxy under it, stripped. */
  function GetProxy(proxies: seq<string>, proxyId: nat): (r: (Option<string>, nat))
    ensures ValidCursor(proxies, r.1) && r.0 == ProxyAt(proxies, r.1)
    ensures proxies == [] ==> r == (None, 0)
    ensures r.1 == NextCursor(|proxies|, proxyId)
  {
    if proxies == [] then (None, 0)
    else
      var next := NextCursor(|proxies|, proxyId);
      (Some(Strip(proxies[next])), next)
  }

  /** On a non-empty list the cursor advances by one modulo the length; from beyond the end it restarts at 0. */
  lemma NextCursorAdvances(n: nat, id: nat)
    requires n > 0
    ensures id < n ==> NextCursor(n, id) == (id + 1) % n
    ensures n <= id ==> NextCursor(n, id) == 0
  {
    if id < n - 1 {
      SmallMod(id + 1, n);
    } else if id == n - 1 {
      DivModUnique(n, n, 1, 0);
    }
  }

  /** The cursor after `k` successive calls of `get_proxy` on `n` proxies, starting from `id`. */
  function Cycle(n: nat, id: nat, k: nat): (r: nat)
    ensures k > 0 ==> (if n == 0 then r == 0 else r < n)
  {
    if k == 0 then id else NextCursor(n, Cycle(n, id, k - 1))
  }

  /** From a valid cursor, `k` calls land `k` places further on, modulo the list length. */
  lemma {:induction false} CycleModular(n: nat, id: nat, k: nat)
    requires id < n
    ensures Cycle(n, id, k) == (id + k) % n
  {
    if k == 0 {
      SmallMod(id, n);
    } else {
      CycleModular(n, id, k - 1);
      NextCursorAdvances(n, Cycle(n, id, k - 1));
      ModSucc(id + k - 1, n);
    }
  }

  /** The walk is a cycle: as many calls as there are proxies bring a valid cursor back. */
  lemma {:induction false} CycleReturns(n: nat, id: nat)
    requires id < n
    ensures Cycle(n, id, n) == id
    ensures forall k :: 0 < k < n ==> Cycle(n, id, k) != id
  {
    CycleModular(n, id, n);
    ModShift(id, n);
    forall k | 0 < k < n
      ensures Cycle(n, id, k) != id
    {
      CycleModular(n, id, k);
      ModStep(id, k, n);
    }
  }

  /** Calls compose: `a` calls followed by `b` calls are `a + b` calls. */
  lemma {:induction false} CycleAdd(n: nat, id: nat, a: nat, b: nat)
    ensures Cycle(n, Cycle(n, id, a), b) == Cycle(n, id, a + b)
  {
    if b > 0 {
      CycleAdd(n, id, a, b - 1);
    }
  }

  /** How many multiples of `m` lie in `(lo, hi]`: the scheduled rotations while a counter runs from `lo` to `hi`. */
  function MultiplesIn(lo: nat, hi: nat, m: nat): (r: nat)
    requires m > 0
    ensures lo <= hi ==> r <= hi - lo
    decreases hi
  {
    if hi <= lo then 0
    else MultiplesIn(lo, hi - 1, m) + (if hi % m == 0 then 1 else 0)
  }

  /** The count of multiples in `(lo, hi]` is `hi / m - lo / m`. */
  lemma {:induction false} MultiplesInClosedForm(lo: nat, hi: nat, m: nat)
    requires m > 0 && lo <= hi
    ensures MultiplesIn(lo, hi, m) == hi / m - lo / m
    decreases hi
  {
    if lo < hi {
      MultiplesInClosedForm(lo, hi - 1, m);
      DivStep(hi, m);
    }
  }

  /** Counting multiples over two adjacent ranges adds up. */
  lemma {:induction false} MultiplesInSplit(lo: nat, mid: nat, hi: nat, m: nat)
    requires m > 0 && lo <= mid <= hi
    ensures MultiplesIn(lo, hi, m) == MultiplesIn(lo, mid, m) + MultiplesIn(mid, hi, m)
    decreases hi
  {
    if mid < hi {
      MultiplesInSplit(lo, mid, hi - 1, m);
    }
  }

  // Arithmetic helpers.

  lemma SmallMod(a: nat, n: nat)
    requires a < n
    ensures a % n == a
  {
  }

  /** `a` is `q * n + r` with `0 <= r < n` in exactly one way. */
  lemma {:induction false} DivModUnique(a: int, n: int, q: int, r: int)
    requires n > 0 && 0 <= r < n && a == q * n + r
    ensures a / n == q && a % n == r
  {
    var q', r' := a / n, a % n;
    assert a == q' * n + r';
    if q' < q {
      assert (q - q') * n <= r' - r by {
        assert (q - q') * n == q * n - q' * n;
      }
      assert (q - q') * n >= n by {
        MulAtLeast(q - q', n);
      }
      assert false;
    } else if q < q' {
      assert (q' - q) * n <= r - r' by {
        assert (q' - q) * n == q' * n - q * n;
      }
      assert (q' - q) * n >= n by {
        MulAtLeast(q' - q, n);
      }
      assert false;
    }
  }

  lemma MulAtLeast(d: int, n: int)
    requires d >= 1 && n > 0
    ensures d * n >= n
  {
  }

  lemma {:induction false} ModSucc(a: nat, n: nat)
    requires n > 0
    ensures (a % n + 1) % n == (a + 1) % n
  {
    var q, r := a / n, a % n;
    if r + 1 < n {
      DivModUnique(a + 1, n, q, r + 1);
      SmallMod(r + 1, n);
    } else {
      DivModUnique(a + 1, n, q + 1, 0);
      DivModUnique(r + 1, n, 1, 0);
    }
  }

  lemma {:induction false} ModShift(a: nat, n: nat)
    requires a < n
    ensures (a + n) % n == a
  {
    DivModUnique(a + n, n, 1, a);
  }

  lemma {:induction false} ModStep(a: nat, k: nat, n: nat)
    requires a < n && 0 < k < n
    ensures (a + k) % n != a
  {
    if a + k < n {
      SmallMod(a + k, n);
    } else {
      DivModUnique(a + k, n, 1, a + k - n);
    }
  }

  lemma {:induction false} DivStep(h: nat, m: nat)
    requires m > 0 && h > 0
    ensures h / m - (h - 1) / m == if h % m == 0 then 1 else 0
  {
    var q, r := (h - 1) / m, (h - 1) % m;
    if r + 1 < m {
      DivModUnique(h, m, q, r + 1);
    } else {
      DivModUnique(h, m, q + 1, 0);
    }
  }
}

=== FILE: pystring.dfy ===
/**
 * The parts of Python's `str` API that the price cleaner and the proxy
 * handling rely on: `isdigit`, `isspace`, `filter`/`join`, `replace`,
 * `strip` and `split(sep, 1)`, as functions on `seq<char>`.
 */
module PyString {

  /** `str.isdigit` on one character, restricted to the ASCII digits. */
  predicate IsDigit(c: char) {
    '0' <= c <= '9'
  }

  /** `str.isspace` on one character: exactly what `str.strip()` removes. */
  predicate IsSpace(c: char) {
    || ('\t' <= c <= '\r')
    || ('\U{1C}' <= c <= '\U{1F}')
    || c == ' ' || c == '\U{85}' || c == '\U{A0}' || c == '\U{1680}'
    || ('\U{2000}' <= c <= '\U{200A}')
    || c == '\U{2028}' || c == '\U{2029}' || c == '\U{202F}' || c == '\U{205F}' || c == '\U{3000}'
  }

  /** The character tests the cleaner filters by: `str.isdigit`, digit-or-comma, and "not this character". */
  datatype CharClass = Digit | DigitOrComma | Except(excluded: char)

  predicate Matches(k: CharClass, c: char) {
    match k
    case Digit => IsDigit(c)
    case DigitOrComma => IsDigit(c) || c == ','
    case Except(x) => c != x
  }

  predicate AllDigits(s: string) {
    forall i :: 0 <= i < |s| ==> IsDigit(s[i])
  }

  /** `''.join(filter(p, s))`: the characters of `s` in class `p`, in order. */
  function Filter(s: string, p: CharClass): (r: string)
    ensures |r| <= |s|
  {
    if s == [] then []
    else (if Matches(p, s[0]) then [s[0]] else []) + Filter(s[1..], p)
  }

  /** `''.join(filter(str.isdigit, s))`. */
  function Digits(s: string): string {
    Filter(s, Digit)
  }

  /** `s.replace(c, '')` for a single character `c`. */
  function Remove(s: string, c: char): (r: string)
    ensures c !in r
    ensures forall x :: x != c ==> (x in r <==> x in s)
  {
    FilterKeeps(s, Except(c));
    Filter(s, Except(c))
  }

  /** `s.replace(pat, '')`: every non-overlapping occurrence of `pat`, scanned from the left, is deleted. */
  function RemoveSubstring(s: string, pat: string): (r: string)
    requires pat != []
    ensures |r| <= |s|
    ensures forall c :: c in r ==> c in s
    decreases |s|
  {
    if |s| < |pat| then s
    else if s[..|pat|] == pat then RemoveSubstring(s[|pat|..], pat)
    else [s[0]] + RemoveSubstring(s[1..], pat)
  }

  /** `s.replace(a, b)` for single characters `a` and `b`. */
  function Replace(s: string, a: char, b: char): (r: string)
    ensures |r| == |s|
    ensures a != b ==> a !in r
  {
    seq(|s|, i requires 0 <= i < |s| => if s[i] == a then b else s[i])
  }

  /** `s.lstrip()`: the suffix of `s` that starts at its first non-space character. */
  function StripLeft(s: string): string
  {
    if s != [] && IsSpace(s[0]) then StripLeft(s[1..]) else s
  }

  /** `s.rstrip()`: the prefix of `s` that ends at its last non-space character. */
  function StripRight(s: string): string
  {
    if s != [] && IsSpace(s[|s| - 1]) then StripRight(s[..|s| - 1]) else s
  }

  /** `s.strip()`. */
  function Strip(s: string): string
  {
    StripRight(StripLeft(s))
  }

  /** `lstrip` drops exactly the leading whitespace. */
  lemma {:induction false} StripLeftTrims(s: string)
    ensures |StripLeft(s)| <= |s| && StripLeft(s) == s[|s| - |StripLeft(s)|..]
    ensures forall i :: 0 <= i < |s| - |StripLeft(s)| ==> IsSpace(s[i])
    ensures StripLeft(s) != [] ==> !IsSpace(StripLeft(s)[0])
  {
    if s != [] && IsSpace(s[0]) {
      StripLeftTrims(s[1..]);
      assert forall i :: 1 <= i < |s| - |StripLeft(s)| ==> s[i] == s[1..][i - 1];
    }
  }

  /** `rstrip` drops exactly the trailing whitespace. */
  lemma {:induction false} StripRightTrims(s: string)
    ensures |StripRight(s)| <= |s| && StripRight(s) == s[..|StripRight(s)|]
    ensures forall i :: |StripRight(s)| <= i < |s| ==> IsSpace(s[i])
    ensures StripRight(s) != [] ==> !IsSpace(StripRight(s)[|StripRight(s)| - 1])
  {
    if s != [] && IsSpace(s[|s| - 1]) {
      StripRightTrims(s[..|s| - 1]);
      assert forall i :: |StripRight(s)| <= i < |s| - 1 ==> s[i] == s[..|s| - 1][i];
    }
  }

  /** `strip` only removes characters. */
  lemma StripKeeps(s: string)
    ensures forall c :: c in Strip(s) ==> c in s
  {
    StripLeftTrims(s);
    StripRightTrims(StripLeft(s));
  }

  /** `strip` leaves no whitespace at either end, and what it drops on the left is whitespace. */
  lemma {:induction false} StripTrims(s: string)
    ensures Strip(s) != [] ==> !IsSpace(Strip(s)[0]) && !IsSpace(Strip(s)[|Strip(s)| - 1])
    ensures forall i :: 0 <= i < |s| - |StripLeft(s)| ==> IsSpace(s[i])
  {
    var l := StripLeft(s);
    StripLeftTrims(s);
    StripRightTrims(l);
    if Strip(s) != [] {
      assert Strip(s)[0] == l[0];
    }
  }

  /** `s.index(c)`: the position of the first occurrence of `c`. */
  function IndexOf(s: string, c: char): (r: nat)
    requires c in s
    ensures r < |s| && s[r] == c
    ensures c !in s[..r]
  {
    if s[0] == c then 0
    else
      assert c in s[1..] by { assert s == [s[0]] + s[1..]; }
      var k := IndexOf(s[1..], c);
      assert s[..k + 1] == [s[0]] + s[1..][..k];
      k + 1
  }

  /** `s.split(c, 1)` when `c` occurs in `s`: the text before and after its first occurrence. */
  function SplitOnce(s: string, c: char): (r: (string, string))
    requires c in s
    ensures s == r.0 + [c] + r.1
    ensures c !in r.0
  {
    var k := IndexOf(s, c);
    assert s == s[..k] + [c] + s[k + 1..];
    (s[..k], s[k + 1..])
  }

  // Lemmas about Filter, the workhorse of the price cleaner.

  /** What `Filter` keeps: only characters of the class, and every such character of the input. */
  lemma {:induction false} FilterKeeps(s: string, p: CharClass)
    ensures forall i :: 0 <= i < |Filter(s, p)| ==> Matches(p, Filter(s, p)[i])
    ensures forall c :: c in Filter(s, p) <==> c in s && Matches(p, c)
  {
    if s != [] {
      FilterKeeps(s[1..], p);
      assert s == [s[0]] + s[1..];
    }
  }

  lemma DigitsAreDigits(s: string)
    ensures AllDigits(Digits(s))
  {
    FilterKeeps(s, Digit);
  }

  lemma {:induction false} FilterAppend(a: string, b: string, p: CharClass)
    ensures Filter(a + b, p) == Filter(a, p) + Filter(b, p)
  {
    if a == [] {
      assert a + b == b;
    } else {
      var head := if Matches(p, a[0]) then [a[0]] else [];
      assert (a + b)[0] == a[0];
      assert (a + b)[1..] == a[1..] + b;
      FilterAppend(a[1..], b, p);
      calc {
        Filter(a + b, p);
        head + Filter(a[1..] + b, p);
        head + (Filter(a[1..], p) + Filter(b, p));
        (head + Filter(a[1..], p)) + Filter(b, p);
      }
    }
  }

  lemma {:induction false} FilterDropsSeparator(before: string, sep: char, after: string, q: CharClass)
    requires !Matches(q, sep)
    ensures Filter(before + [sep] + after, q) == Filter(before, q) + Filter(after, q)
  {
    assert Filter([sep], q) == [] by {
      assert [sep][1..] == [];
    }
    FilterAppend(before + [sep], after, q);
    FilterAppend(before, [sep], q);
  }

  /** Filtering by a weaker predicate first changes nothing. */
  lemma {:induction false} FilterFilter(s: string, p: CharClass, q: CharClass)
    requires forall c :: Matches(q, c) ==> Matches(p, c)
    ensures Filter(Filter(s, p), q) == Filter(s, q)
  {
    if s != [] {
      var head := if Matches(p, s[0]) then [s[0]] else [];
      FilterAppend(head, Filter(s[1..], p), q);
      FilterFilter(s[1..], p, q);
    }
  }

  /** Removing characters `q` rejects is invisible through `Filter(., q)`. */
  lemma {:induction false} FilterRemove(s: string, c: char, q: CharClass)
    requires !Matches(q, c)
    ensures Filter(Remove(s, c), q) == Filter(s, q)
  {
    FilterFilter(s, Except(c), q);
  }

  lemma {:induction false} FilterRemoveSubstring(s: string, pat: string, q: CharClass)
    requires pat != [] && Filter(pat, q) == []
    ensures Filter(RemoveSubstring(s, pat), q) == Filter(s, q)
    decreases |s|
  {
    if |s| < |pat| {
    } else if s[..|pat|] == pat {
      assert s == pat + s[|pat|..];
      FilterAppend(pat, s[|pat|..], q);
      FilterRemoveSubstring(s[|pat|..], pat, q);
    } else {
      assert s == [s[0]] + s[1..];
      FilterAppend([s[0]], s[1..], q);
      FilterRemoveSubstring(s[1..], pat, q);
    }
  }

  lemma {:induction false} FilterStripLeft(s: string, q: CharClass)
    requires forall c :: Matches(q, c) ==> !IsSpace(c)
    ensures Filter(StripLeft(s), q) == Filter(s, q)
  {
    if s != [] && IsSpace(s[0]) {
      FilterStripLeft(s[1..], q);
    }
  }

  lemma {:induction false} FilterStripRight(s: string, q: CharClass)
    requires forall c :: Matches(q, c) ==> !IsSpace(c)
    ensures Filter(StripRight(s), q) == Filter(s, q)
  {
    if s != [] && IsSpace(s[|s| - 1]) {
      var init := s[..|s| - 1];
      assert s == init + [s[|s| - 1]];
      FilterAppend(init, [s[|s| - 1]], q);
      FilterStripRight(init, q);
    }
  }

  lemma {:induction false} FilterStrip(s: string, q: CharClass)
    requires forall c :: Matches(q, c) ==> !IsSpace(c)
    ensures Filter(Strip(s), q) == Filter(s, q)
  {
    FilterStripLeft(s, q);
    FilterStripRight(StripLeft(s), q);
  }

  lemma {:induction false} FilterReplace(s: string, a: char, b: char, q: CharClass)
    requires !Matches(q, a) && !Matches(q, b)
    ensures Filter(Replace(s, a, b), q) == Filter(s, q)
  {
    if s != [] {
      var r := Replace(s, a, b);
      assert r == [r[0]] + Replace(s[1..], a, b);
      FilterAppend([r[0]], Replace(s[1..], a, b), q);
      FilterReplace(s[1..], a, b, q);
    }
  }

  lemma ReplaceAppend(x: string, y: string, a: char, b: char)
    ensures Replace(x + y, a, b) == Replace(x, a, b) + Replace(y, a, b)
  {
    var r, rx, ry := Replace(x + y, a, b), Replace(x, a, b), Replace(y, a, b);
    assert forall i :: 0 <= i < |x| ==> (x + y)[i] == x[i];
    assert forall i :: |x| <= i < |x| + |y| ==> (x + y)[i] == y[i - |x|];
    assert forall i :: 0 <= i < |r| ==> r[i] == (rx + ry)[i];
  }

  /** When `b` is new to `s`, it appears after replacing `a` by `b` exactly when `a` was there. */
  lemma ReplacedIn(s: string, a: char, b: char)
    requires b !in s
    ensures b in Replace(s, a, b) <==> a in s
  {
    var r := Replace(s, a, b);
    if a in s {
      var i :| 0 <= i < |s| && s[i] == a;
      assert r[i] == b;
    }
  }

  /**
   * Filtering keeps the first occurrence of a kept character `c` in place:
   * what precedes it and what follows it are filtered independently.
   */
  lemma {:induction false} FilterSplitOnce(s: string, c: char, q: CharClass)
    requires c in s && Matches(q, c)
    ensures c in Filter(s, q)
    ensures SplitOnce(Filter(s, q), c) == (Filter(SplitOnce(s, c).0, q), Filter(SplitOnce(s, c).1, q))
  {
    var parts := SplitOnce(s, c);
    var fb, fa := Filter(parts.0, q), Filter(parts.1, q);
    FilterAppend(parts.0 + [c], parts.1, q);
    FilterAppend(parts.0, [c], q);
    assert Filter([c], q) == [c] by {
      assert [c][1..] == [];
    }
    assert Filter(s, q) == fb + [c] + fa;
    FilterKeeps(parts.0, q);
    SplitAtFirst(fb, c, fa);
  }

  /** Splitting `a + [c] + b` at its first `c` gives back `a` and `b` when `c` is not in `a`. */
  lemma {:induction false} SplitAtFirst(a: string, c: char, b: string)
    requires c !in a
    ensures c in a + [c] + b
    ensures SplitOnce(a + [c] + b, c) == (a, b)
  {
    var s := a + [c] + b;
    assert s[|a|] == c;
    assert s[..|a|] == a;
    var k := IndexOf(s, c);
    assert k <= |a| by {
      assert s[|a|] in s[..k] || k <= |a|;
    }
    assert k >= |a| by {
      assert forall j :: 0 <= j < |a| ==> s[j] == a[j];
    }
    assert s[|a| + 1..] == b;
  }
}

=== FILE: run_facts.dfy ===
/**
 * Properties of the driver: how many requests and proxy moves each retry loop
 * makes, which listings turn into entries, and that every entry is what some
 * detail page of the store showed.
 */
module RunFacts {
  import opened Wrappers
  import opened PyString
  import opened PriceCleaning
  import opened ProxyRotation
  import opened PsnParser

  /** Entry `e` was read from listing `g`: same title, same badge text, and the link built from its `href`. */
  predicate FromListing(e: GameEntry, g: Listing) {
    g.title == Some(e.title) && g.discountBadge == Some(e.discount)
    && g.href.Some? && e.link == StoreOrigin + g.href.value
  }

  /** The store answered request number `n` for `e.link` through `proxy` with a page showing `e`. */
  predicate ShownVia(up: Upstream, e: GameEntry, proxy: Option<string>, n: nat) {
    match up.fetchDiscountData(e.link, proxy, n)
    case Some(d) => DetailShows(d, e)
    case None => false
  }

  /** One detail request as it went out: the link it fetched and the proxy it went through. */
  datatype Request = Request(link: string, proxy: Option<string>)

  /**
   * Entry `e` answers request number `n` of `sent`, whose numbers run from
   * `from + 1` on: that request fetched `e.link` through the proxy under the
   * valid cursor `id`, and the store answered it with a page showing `e`.
   */
  predicate AnsweredWith(up: Upstream, proxies: seq<string>, sent: seq<Request>, from: nat, e: GameEntry, n: nat, id: nat) {
    && ValidCursor(proxies, id)
    && SentAt(sent, from, n, Request(e.link, ProxyAt(proxies, id)))
    && ShownVia(up, e, ProxyAt(proxies, id), n)
  }

  /** Request number `n` of `sent`, whose numbers run from `from + 1` on, is `r`. */
  predicate SentAt(sent: seq<Request>, from: nat, n: nat, r: Request) {
    from < n <= from + |sent| && sent[n - from - 1] == r
  }

  /** Entry `e` is the store's answer to one of the detail requests `sent`, numbered from `from + 1` on. */
  ghost predicate Harvested(up: Upstream, proxies: seq<string>, sent: seq<Request>, from: nat, e: GameEntry) {
    exists n: nat, id: nat :: AnsweredWith(up, proxies, sent, from, e, n, id)
  }

  /** `entries` is `acc` followed by answers to the detail requests `sent`, numbered from `from + 1` on. */
  ghost predicate Extends(up: Upstream, proxies: seq<string>, sent: seq<Request>, from: nat, acc: seq<GameEntry>, entries: seq<GameEntry>) {
    && |acc| <= |entries| && entries[..|acc|] == acc
    && forall j :: |acc| <= j < |entries| ==> Harvested(up, proxies, sent, from, entries[j])
  }

  /**
   * The page retry loop makes at most `retry_attemps` attempts, gives up only
   * after all of them, and moves the proxy once per failed attempt and not
   * after the one that succeeds.
   */
  lemma {:induction false} PageRetryAccounting(cfg: Config, proxies: seq<string>, up: Upstream, page: nat, s: Session, a: nat)
    requires a <= cfg.retryAttempts
    ensures var (response, s', k) := PageRetry(cfg, proxies, up, page, s, a);
      && a <= k <= cfg.retryAttempts
      && (response.None? ==> k == cfg.retryAttempts)
      && (response.Some? ==> k < cfg.retryAttempts && response == up.fetchGameData(page, s'.proxy, k))
      && s'.proxyId == Cycle(|proxies|, s.proxyId, k - a)
      && s'.discountRequests == s.discountRequests
      && (SessionValid(proxies, s) ==> SessionValid(proxies, s'))
    decreases cfg.retryAttempts - a
  {
    if a < cfg.retryAttempts && up.fetchGameData(page, s.proxy, a).None? {
      var next := Rotate(proxies, s);
      var r := PageRetry(cfg, proxies, up, page, next, a + 1);
      assert PageRetry(cfg, proxies, up, page, s, a) == r;
      PageRetryAccounting(cfg, proxies, up, page, next, a + 1);
      CycleAdd(|proxies|, s.proxyId, 1, r.2 - (a + 1));
    }
  }

  /**
   * The detail retry loop makes at most `retry_attemps` attempts, counts each
   * one, and moves the proxy exactly once per multiple of
   * `replace_proxy_count` the counter passes: a failure alone never moves it.
   */
  lemma {:induction false} DetailRetryAccounting(cfg: Config, proxies: seq<string>, up: Upstream, link: string, s: Session, a: nat)
    requires ValidConfig(cfg) && a <= cfg.retryAttempts
    ensures var (detail, s', k) := DetailRetry(cfg, proxies, up, link, s, a);
      && a <= k <= cfg.retryAttempts
      && (detail.None? ==> k == cfg.retryAttempts)
      && (detail.Some? ==> a < k && detail == up.fetchDiscountData(link, s'.proxy, s'.discountRequests))
      && s'.discountRequests == s.discountRequests + (k - a)
      && s'.proxyId == Cycle(|proxies|, s.proxyId, MultiplesIn(s.discountRequests, s'.discountRequests, cfg.replaceProxyCount))
      && (SessionValid(proxies, s) ==> SessionValid(proxies, s'))
    decreases cfg.retryAttempts - a
  {
    if a < cfg.retryAttempts {
      var m := cfg.replaceProxyCount;
      var n := s.discountRequests + 1;
      var s1 := CountRequest(cfg, proxies, s);
      assert MultiplesIn(s.discountRequests, n, m) == if n % m == 0 then 1 else 0 by {
        assert MultiplesIn(s.discountRequests, n - 1, m) == 0;
      }
      if up.fetchDiscountData(link, s1.proxy, n).None? {
        DetailRetryAccounting(cfg, proxies, up, link, s1, a + 1);
        var final := DetailRetry(cfg, proxies, up, link, s1, a + 1).1;
        MultiplesInSplit(s.discountRequests, n, final.discountRequests, m);
        CycleAdd(|proxies|, s.proxyId, MultiplesIn(s.discountRequests, n, m), MultiplesIn(n, final.discountRequests, m));
      }
    }
  }

  // The detail requests each part of the run sends, in the order they go out.

  /** The detail retry loop from attempt `a` on: one request per attempt, through the proxy held once it is counted. */
  function DetailRequests(cfg: Config, proxies: seq<string>, up: Upstream, link: string, s: Session, a: nat): seq<Request>
    requires ValidConfig(cfg)
    decreases cfg.retryAttempts - a
  {
    if a >= cfg.retryAttempts then []
    else
      var s' := CountRequest(cfg, proxies, s);
      [Request(link, s'.proxy)]
        + if up.fetchDiscountData(link, s'.proxy, s'.discountRequests).None? then DetailRequests(cfg, proxies, up, link, s', a + 1) else []
  }

  /** One listing: the detail requests for its link; none when it raises or is skipped before fetching. */
  function GameRequests(cfg: Config, proxies: seq<string>, up: Upstream, g: Listing, s: Session): seq<Request>
    requires ValidConfig(cfg)
  {
    if g.title.None? || g.discountBadge.None? || g.href.None? then []
    else DetailRequests(cfg, proxies, up, StoreOrigin + g.href.value, s, 0)
  }

  /** The listings of a page, up to the first exception. */
  function GamesLoopRequests(cfg: Config, proxies: seq<string>, up: Upstream, games: seq<Listing>, s: Session): seq<Request>
    requires ValidConfig(cfg)
    decreases |games|
  {
    if games == [] then []
    else
      var (result, s') := GameStep(cfg, proxies, up, games[0], s);
      GameRequests(cfg, proxies, up, games[0], s) + if result.Err? then [] else GamesLoopRequests(cfg, proxies, up, games[1..], s')
  }

  /** One catalog page: the requests of its listings, none when the page is skipped. */
  function PageRequests(cfg: Config, proxies: seq<string>, up: Upstream, page: nat, s: Session): seq<Request>
    requires ValidConfig(cfg)
  {
    var (response, s2, _) := PageRetry(cfg, proxies, up, page, ScheduledRotation(cfg, proxies, page, s), 0);
    if response.None? then [] else GamesLoopRequests(cfg, proxies, up, Arrange(cfg, up, page, response.value.games), s2)
  }

  /** The pages from `page` on, up to the first exception. */
  function RunFromRequests(cfg: Config, proxies: seq<string>, up: Upstream, page: nat, s: Session, acc: seq<GameEntry>): seq<Request>
    requires ValidConfig(cfg)
    decreases LastPage + 1 - page
  {
    if page > LastPage then []
    else
      var o := PageStep(cfg, proxies, up, page, s, acc);
      PageRequests(cfg, proxies, up, page, s) + if o.crash.Some? then [] else RunFromRequests(cfg, proxies, up, page + 1, o.session, o.entries)
  }

  /** Every detail request of a run, in order: the k-th carries request number `k + 1`. */
  function RunRequests(cfg: Config, proxies: seq<string>, up: Upstream): seq<Request>
    requires ValidConfig(cfg)
  {
    RunFromRequests(cfg, proxies, up, FirstPage, InitialSession(proxies), [])
  }

  /**
   * The detail retry loop sends one request per attempt, all for its link,
   * and the answered one is the last, sent through the proxy it ends with.
   */
  lemma {:induction false} DetailRequestsFacts(cfg: Config, proxies: seq<string>, up: Upstream, link: string, s: Session, a: nat)
    requires ValidConfig(cfg) && a <= cfg.retryAttempts
    ensures var (detail, s', k) := DetailRetry(cfg, proxies, up, link, s, a);
      var sent := DetailRequests(cfg, proxies, up, link, s, a);
      && |sent| == k - a
      && (forall i :: 0 <= i < |sent| ==> sent[i].link == link)
      && (detail.Some? ==> |sent| > 0 && sent[|sent| - 1] == Request(link, s'.proxy))
    decreases cfg.retryAttempts - a
  {
    if a < cfg.retryAttempts {
      var s1 := CountRequest(cfg, proxies, s);
      if up.fetchDiscountData(link, s1.proxy, s1.discountRequests).None? {
        DetailRetryAccounting(cfg, proxies, up, link, s1, a + 1);
        DetailRequestsFacts(cfg, proxies, up, link, s1, a + 1);
        var rest := DetailRequests(cfg, proxies, up, link, s1, a + 1);
        assert DetailRequests(cfg, proxies, up, link, s, a) == [Request(link, s1.proxy)] + rest;
      }
    }
  }

  /** One turn of the detail retry loop, unfolded. */
  lemma DetailRetryStep(cfg: Config, proxies: seq<string>, up: Upstream, link: string, s: Session, a: nat)
    requires ValidConfig(cfg) && a < cfg.retryAttempts
    ensures var s' := CountRequest(cfg, proxies, s);
      var detail := up.fetchDiscountData(link, s'.proxy, s'.discountRequests);
      DetailRetry(cfg, proxies, up, link, s, a)
        == if detail.None? then DetailRetry(cfg, proxies, up, link, s', a + 1) else (detail, s', a + 1)
  {
  }

  /** One turn of the loop over listings, unfolded. */
  lemma GamesLoopStep(cfg: Config, proxies: seq<string>, up: Upstream, games: seq<Listing>, k: nat, s: Session, acc: seq<GameEntry>)
    requires ValidConfig(cfg) && k < |games|
    ensures var (result, s') := GameStep(cfg, proxies, up, games[k], s);
      GamesLoop(cfg, proxies, up, games[k..], s, acc)
        == if result.Err? then Outcome(acc, Some(result.error), s')
           else GamesLoop(cfg, proxies, up, games[k + 1..], s', acc + if result.value.Some? then [result.value.value] else [])
  {
    assert games[k..][0] == games[k] && games[k..][1..] == games[k + 1..];
    var (result, s') := GameStep(cfg, proxies, up, games[k], s);
    if result.Ok? && result.value.None? {
      assert acc + [] == acc;
    }
  }

  /** One turn of the page loop, unfolded. */
  lemma RunFromStep(cfg: Config, proxies: seq<string>, up: Upstream, page: nat, s: Session, acc: seq<GameEntry>)
    requires ValidConfig(cfg) && page <= LastPage
    ensures var o := PageStep(cfg, proxies, up, page, s, acc);
      RunFrom(cfg, proxies, up, page, s, acc)
        == if o.crash.Some? then o else RunFrom(cfg, proxies, up, page + 1, o.session, o.entries)
  {
  }

  /**
   * One listing: without a badge it adds nothing and sends no request; every
   * request it sends is for its own link; an entry it adds carries the
   * listing's title, badge and link and is the store's answer to one of those
   * requests; at most `retry_attemps` requests are counted.
   */
  lemma {:induction false} GameStepFacts(cfg: Config, proxies: seq<string>, up: Upstream, g: Listing, s: Session)
    requires ValidConfig(cfg) && SessionValid(proxies, s)
    ensures var (result, s') := GameStep(cfg, proxies, up, g, s);
      var sent := GameRequests(cfg, proxies, up, g, s);
      && (g.title.Some? && g.discountBadge.None? ==> result == Ok(None) && s' == s)
      && (forall i :: 0 <= i < |sent| ==> g.href.Some? && sent[i].link == StoreOrigin + g.href.value)
      && (result.Ok? && result.value.Some? ==>
            && FromListing(result.value.value, g)
            && Harvested(up, proxies, sent, s.discountRequests, result.value.value))
      && s'.discountRequests == s.discountRequests + |sent| && |sent| <= cfg.retryAttempts
      && SessionValid(proxies, s')
  {
    if g.title.Some? && g.discountBadge.Some? && g.href.Some? {
      var link := StoreOrigin + g.href.value;
      DetailRetryAccounting(cfg, proxies, up, link, s, 0);
      DetailRequestsFacts(cfg, proxies, up, link, s, 0);
      GameStepHarvested(cfg, proxies, up, g, s);
    }
  }

  /** The entry a listing adds is the store's answer to the last detail request it sent. */
  lemma GameStepHarvested(cfg: Config, proxies: seq<string>, up: Upstream, g: Listing, s: Session)
    requires ValidConfig(cfg) && SessionValid(proxies, s) && g.title.Some? && g.discountBadge.Some? && g.href.Some?
    ensures var result := GameStep(cfg, proxies, up, g, s).0;
      result.Ok? && result.value.Some? ==> Harvested(up, proxies, GameRequests(cfg, proxies, up, g, s), s.discountRequests, result.value.value)
  {
    var link := StoreOrigin + g.href.value;
    DetailRetryAccounting(cfg, proxies, up, link, s, 0);
    DetailRequestsFacts(cfg, proxies, up, link, s, 0);
    var sent := DetailRequests(cfg, proxies, up, link, s, 0);
    var (detail, s', _) := DetailRetry(cfg, proxies, up, link, s, 0);
    if detail.Some? {
      var result := ReadDetail(g.title.value, g.discountBadge.value, link, detail.value);
      if result.Ok? && result.value.Some? {
        var e := result.value.value;
        assert e.link == link && DetailShows(detail.value, e);
        AnsweredLast(up, proxies, sent, s.discountRequests, e, s', detail.value);
      }
    }
  }

  /** The last request of `sent`, answered with a page showing `e`, makes `e` harvested. */
  lemma AnsweredLast(up: Upstream, proxies: seq<string>, sent: seq<Request>, from: nat, e: GameEntry, s: Session, d: DetailPage)
    requires SessionValid(proxies, s) && from + |sent| == s.discountRequests
    requires |sent| > 0 && sent[|sent| - 1] == Request(e.link, s.proxy)
    requires up.fetchDiscountData(e.link, s.proxy, s.discountRequests) == Some(d) && DetailShows(d, e)
    ensures Harvested(up, proxies, sent, from, e)
  {
    assert ShownVia(up, e, ProxyAt(proxies, s.proxyId), s.discountRequests);
    assert SentAt(sent, from, s.discountRequests, Request(e.link, s.proxy));
    assert AnsweredWith(up, proxies, sent, from, e, s.discountRequests, s.proxyId);
  }

  /**
   * The other direction: a listing with a title, a badge and a link adds an
   * entry exactly when its detail page is served with an expiry and two
   * readable prices, and the entry is made of those texts.
   */
  lemma GameStepAppends(cfg: Config, proxies: seq<string>, up: Upstream, g: Listing, s: Session)
    requires ValidConfig(cfg) && g.title.Some? && g.discountBadge.Some? && g.href.Some?
    ensures var link := StoreOrigin + g.href.value;
      var detail := DetailRetry(cfg, proxies, up, link, s, 0).0;
      var result := GameStep(cfg, proxies, up, g, s).0;
      && (result.Ok? && result.value.Some? <==> detail.Some? && Readable(detail.value))
      && (detail.Some? && Readable(detail.value) ==>
            var d := detail.value;
            result == Ok(Some(GameEntry(g.title.value, g.discountBadge.value,
                                        CleanPrice(d.originalPrice.value).value, CleanPrice(d.finalPrice.value).value,
                                        d.discountExpire.value, link))))
  {
  }

  /** A detail page with an expiry and two prices `float` accepts. */
  predicate Readable(d: DetailPage) {
    && d.discountExpire.Some?
    && d.originalPrice.Some? && CleanPrice(d.originalPrice.value).Ok?
    && d.finalPrice.Some? && CleanPrice(d.finalPrice.value).Ok?
  }

  /**
   * A listing whose detail page is never served is skipped without an
   * exception after `retry_attemps` counted requests, and the loop goes on
   * with the next listing.
   */
  lemma {:induction false} DetailSkipped(cfg: Config, proxies: seq<string>, up: Upstream, g: Listing, rest: seq<Listing>, s: Session, acc: seq<GameEntry>)
    requires ValidConfig(cfg) && g.title.Some? && g.discountBadge.Some? && g.href.Some?
    requires forall proxy, n :: up.fetchDiscountData(StoreOrigin + g.href.value, proxy, n).None?
    ensures var (result, s') := GameStep(cfg, proxies, up, g, s);
      && result == Ok(None)
      && s'.discountRequests == s.discountRequests + cfg.retryAttempts
      && s'.proxyId == Cycle(|proxies|, s.proxyId, MultiplesIn(s.discountRequests, s'.discountRequests, cfg.replaceProxyCount))
      && GamesLoop(cfg, proxies, up, [g] + rest, s, acc) == GamesLoop(cfg, proxies, up, rest, s', acc)
  {
    var link := StoreOrigin + g.href.value;
    DetailRetryAccounting(cfg, proxies, up, link, s, 0);
    var (detail, s', _) := DetailRetry(cfg, proxies, up, link, s, 0);
    assert up.fetchDiscountData(link, s'.proxy, s'.discountRequests).None?;
    assert ([g] + rest)[0] == g && ([g] + rest)[1..] == rest;
  }

  /**
   * The listings of a page: the list only grows, every new entry is the
   * store's answer to one of the detail requests the listings sent, and the
   * counter rises by the number of those requests.
   */
  lemma {:induction false} GamesLoopFacts(cfg: Config, proxies: seq<string>, up: Upstream, games: seq<Listing>, s: Session, acc: seq<GameEntry>)
    requires ValidConfig(cfg) && SessionValid(proxies, s)
    ensures var o := GamesLoop(cfg, proxies, up, games, s, acc);
      var sent := GamesLoopRequests(cfg, proxies, up, games, s);
      && o.session.discountRequests == s.discountRequests + |sent|
      && Extends(up, proxies, sent, s.discountRequests, acc, o.entries)
      && SessionValid(proxies, o.session)
    decreases |games|
  {
    if games == [] {
      ExtendsRefl(up, proxies, [], s.discountRequests, acc);
    } else {
      GameStepFacts(cfg, proxies, up, games[0], s);
      var (result, s') := GameStep(cfg, proxies, up, games[0], s);
      var first := GameRequests(cfg, proxies, up, games[0], s);
      if result.Err? {
        assert GamesLoopRequests(cfg, proxies, up, games, s) == first + [] == first;
        ExtendsRefl(up, proxies, first, s.discountRequests, acc);
      } else {
        var acc' := if result.value.Some? then acc + [result.value.value] else acc;
        var o := GamesLoop(cfg, proxies, up, games[1..], s', acc');
        var rest := GamesLoopRequests(cfg, proxies, up, games[1..], s');
        assert GamesLoop(cfg, proxies, up, games, s, acc) == o;
        assert GamesLoopRequests(cfg, proxies, up, games, s) == first + rest;
        GamesLoopFacts(cfg, proxies, up, games[1..], s', acc');
        if result.value.Some? {
          ExtendsAppend(up, proxies, first, s.discountRequests, acc, result.value.value);
        } else {
          ExtendsRefl(up, proxies, first, s.discountRequests, acc);
        }
        ExtendsTrans(up, proxies, first, rest, s.discountRequests, s'.discountRequests, acc, acc', o.entries);
      }
    }
  }

  /**
   * One catalog page: its fetches start after exactly the scheduled proxy
   * move, the list only grows, every new entry is the store's answer to one
   * of the detail requests the page sent, and the counter rises by the
   * number of those requests.
   */
  lemma {:induction false} PageStepFacts(cfg: Config, proxies: seq<string>, up: Upstream, page: nat, s: Session, acc: seq<GameEntry>)
    requires ValidConfig(cfg) && SessionValid(proxies, s)
    ensures var o := PageStep(cfg, proxies, up, page, s, acc);
      var sent := PageRequests(cfg, proxies, up, page, s);
      && ScheduledRotation(cfg, proxies, page, s).proxyId
           == Cycle(|proxies|, s.proxyId, if page % cfg.replaceProxyCount == 0 then 1 else 0)
      && o.session.discountRequests == s.discountRequests + |sent|
      && Extends(up, proxies, sent, s.discountRequests, acc, o.entries)
      && SessionValid(proxies, o.session)
  {
    var s1 := ScheduledRotation(cfg, proxies, page, s);
    ScheduledRotationMoves(cfg, proxies, page, s);
    PageRetryAccounting(cfg, proxies, up, page, s1, 0);
    var (response, s2, _) := PageRetry(cfg, proxies, up, page, s1, 0);
    if response.Some? {
      GamesLoopFacts(cfg, proxies, up, Arrange(cfg, up, page, response.value.games), s2, acc);
    } else {
      ExtendsRefl(up, proxies, [], s.discountRequests, acc);
    }
  }

  /**
   * A page the store never serves is skipped: nothing is added, no detail
   * request is sent, and the proxy has moved once for the schedule (when the
   * page number is a multiple of `replace_proxy_count`) and once per failed attempt.
   */
  lemma {:induction false} PageSkipped(cfg: Config, proxies: seq<string>, up: Upstream, page: nat, s: Session, acc: seq<GameEntry>)
    requires ValidConfig(cfg)
    requires forall proxy, attempt :: up.fetchGameData(page, proxy, attempt).None?
    ensures var o := PageStep(cfg, proxies, up, page, s, acc);
      && o.entries == acc && o.crash.None?
      && o.session.discountRequests == s.discountRequests
      && o.session.proxyId == Cycle(|proxies|, s.proxyId, (if page % cfg.replaceProxyCount == 0 then 1 else 0) + cfg.retryAttempts)
  {
    var scheduled := if page % cfg.replaceProxyCount == 0 then 1 else 0;
    var s1 := ScheduledRotation(cfg, proxies, page, s);
    ScheduledRotationMoves(cfg, proxies, page, s);
    PageRetryAccounting(cfg, proxies, up, page, s1, 0);
    var (response, s2, k) := PageRetry(cfg, proxies, up, page, s1, 0);
    assert response.None?;
    CycleAdd(|proxies|, s.proxyId, scheduled, k);
  }

  /** No request and no new entry: the list extends itself. */
  lemma ExtendsRefl(up: Upstream, proxies: seq<string>, sent: seq<Request>, from: nat, acc: seq<GameEntry>)
    ensures Extends(up, proxies, sent, from, acc, acc)
  {
    assert acc[..|acc|] == acc;
  }

  /** Appending one answer to a request of `sent` extends the list. */
  lemma ExtendsAppend(up: Upstream, proxies: seq<string>, sent: seq<Request>, from: nat, acc: seq<GameEntry>, e: GameEntry)
    requires Harvested(up, proxies, sent, from, e)
    ensures Extends(up, proxies, sent, from, acc, acc + [e])
  {
    assert (acc + [e])[..|acc|] == acc;
  }

  /** An answer to a request of `first` is an answer to a request of `first + rest`, under the same number. */
  lemma HarvestedBefore(up: Upstream, proxies: seq<string>, first: seq<Request>, rest: seq<Request>, from: nat, e: GameEntry)
    requires Harvested(up, proxies, first, from, e)
    ensures Harvested(up, proxies, first + rest, from, e)
  {
    var n: nat, id: nat :| AnsweredWith(up, proxies, first, from, e, n, id);
    SentAtBefore(first, rest, from, n, Request(e.link, ProxyAt(proxies, id)));
    assert AnsweredWith(up, proxies, first + rest, from, e, n, id);
  }

  /** An answer to a request of `rest`, numbered after the requests of `first`, is an answer to a request of `first + rest`. */
  lemma HarvestedAfter(up: Upstream, proxies: seq<string>, first: seq<Request>, rest: seq<Request>, from: nat, mid: nat, e: GameEntry)
    requires mid == from + |first| && Harvested(up, proxies, rest, mid, e)
    ensures Harvested(up, proxies, first + rest, from, e)
  {
    var n: nat, id: nat :| AnsweredWith(up, proxies, rest, mid, e, n, id);
    SentAtAfter(first, rest, from, mid, n, Request(e.link, ProxyAt(proxies, id)));
    assert AnsweredWith(up, proxies, first + rest, from, e, n, id);
  }

  /** A request keeps its number when later requests follow its stretch. */
  lemma SentAtBefore(first: seq<Request>, rest: seq<Request>, from: nat, n: nat, r: Request)
    requires SentAt(first, from, n, r)
    ensures SentAt(first + rest, from, n, r)
  {
  }

  /** A request keeps its number when earlier requests are put in front of its stretch. */
  lemma SentAtAfter(first: seq<Request>, rest: seq<Request>, from: nat, mid: nat, n: nat, r: Request)
    requires mid == from + |first| && SentAt(rest, mid, n, r)
    ensures SentAt(first + rest, from, n, r)
  {
    assert (first + rest)[n - from - 1] == rest[n - mid - 1];
  }

  /** Two stretches of requests in a row, each appending its answers, make one. */
  lemma {:induction false} ExtendsTrans(up: Upstream, proxies: seq<string>, first: seq<Request>, rest: seq<Request>, from: nat, mid: nat,
                                        a: seq<GameEntry>, b: seq<GameEntry>, c: seq<GameEntry>)
    requires mid == from + |first|
    requires Extends(up, proxies, first, from, a, b) && Extends(up, proxies, rest, mid, b, c)
    ensures Extends(up, proxies, first + rest, from, a, c)
  {
    assert c[..|a|] == c[..|b|][..|a|];
    forall j | |a| <= j < |c|
      ensures Harvested(up, proxies, first + rest, from, c[j])
    {
      if j < |b| {
        assert c[j] == b[j];
        HarvestedBefore(up, proxies, first, rest, from, c[j]);
      } else {
        HarvestedAfter(up, proxies, first, rest, from, mid, c[j]);
      }
    }
  }

  /**
   * The rest of a run: the list only grows, every new entry is the store's
   * answer to one of the detail requests sent from `page` on, and the counter
   * rises by the number of those requests.
   */
  lemma {:induction false} RunFromFacts(cfg: Config, proxies: seq<string>, up: Upstream, page: nat, s: Session, acc: seq<GameEntry>)
    requires ValidConfig(cfg) && SessionValid(proxies, s)
    ensures var o := RunFrom(cfg, proxies, up, page, s, acc);
      var sent := RunFromRequests(cfg, proxies, up, page, s, acc);
      && o.session.discountRequests == s.discountRequests + |sent|
      && Extends(up, proxies, sent, s.discountRequests, acc, o.entries)
      && SessionValid(proxies, o.session)
    decreases LastPage + 1 - page, 1
  {
    if page <= LastPage {
      RunFromPageFacts(cfg, proxies, up, page, s, acc);
    } else {
      ExtendsRefl(up, proxies, [], s.discountRequests, acc);
    }
  }

  /** `RunFromFacts` for a page that is still to be visited: that page, then the rest of the run. */
  lemma {:induction false} RunFromPageFacts(cfg: Config, proxies: seq<string>, up: Upstream, page: nat, s: Session, acc: seq<GameEntry>)
    requires ValidConfig(cfg) && SessionValid(proxies, s) && page <= LastPage
    ensures var o := RunFrom(cfg, proxies, up, page, s, acc);
      var sent := RunFromRequests(cfg, proxies, up, page, s, acc);
      && o.session.discountRequests == s.discountRequests + |sent|
      && Extends(up, proxies, sent, s.discountRequests, acc, o.entries)
      && SessionValid(proxies, o.session)
    decreases LastPage + 1 - page, 0
  {
    PageStepFacts(cfg, proxies, up, page, s, acc);
    var o := PageStep(cfg, proxies, up, page, s, acc);
    var first := PageRequests(cfg, proxies, up, page, s);
    if o.crash.None? {
      RunFromFacts(cfg, proxies, up, page + 1, o.session, o.entries);
      var rest := RunFromRequests(cfg, proxies, up, page + 1, o.session, o.entries);
      var final := RunFrom(cfg, proxies, up, page + 1, o.session, o.entries);
      assert RunFrom(cfg, proxies, up, page, s, acc) == final;
      assert RunFromRequests(cfg, proxies, up, page, s, acc) == first + rest;
      ExtendsTrans(up, proxies, first, rest, s.discountRequests, o.session.discountRequests, acc, o.entries, final.entries);
    } else {
      assert RunFrom(cfg, proxies, up, page, s, acc) == o;
      assert RunFromRequests(cfg, proxies, up, page, s, acc) == first + [] == first;
    }
  }

  /**
   * A whole run, finished or cut short by an exception: it sends as many
   * detail requests as it counts, every entry of `psn_games` is the store's
   * answer to one of them, for the entry's own link and through the proxy it
   * went out with, with prices made of ASCII digits; and the proxy cursor is valid.
   */
  lemma {:induction false} RunEntriesHarvested(cfg: Config, proxies: seq<string>, up: Upstream)
    requires ValidConfig(cfg)
    ensures var o := Run(cfg, proxies, up);
      var sent := RunRequests(cfg, proxies, up);
      && |sent| == o.session.discountRequests
      && (forall e :: e in o.entries ==> Harvested(up, proxies, sent, 0, e) && PricesAreDigits(e))
      && SessionValid(proxies, o.session)
  {
    var o := Run(cfg, proxies, up);
    var sent := RunRequests(cfg, proxies, up);
    RunFromFacts(cfg, proxies, up, FirstPage, InitialSession(proxies), []);
    forall e | e in o.entries
      ensures Harvested(up, proxies, sent, 0, e) && PricesAreDigits(e)
    {
      var j :| 0 <= j < |o.entries| && o.entries[j] == e;
      HarvestedPrices(up, proxies, sent, 0, e);
    }
  }

  /** Both prices of an entry are digit strings. */
  predicate PricesAreDigits(e: GameEntry) {
    && AllDigits(e.oldPrice.integerDigits) && AllDigits(e.oldPrice.fractionDigits)
    && AllDigits(e.newPrice.integerDigits) && AllDigits(e.newPrice.fractionDigits)
  }

  lemma HarvestedPrices(up: Upstream, proxies: seq<string>, sent: seq<Request>, from: nat, e: GameEntry)
    requires Harvested(up, proxies, sent, from, e)
    ensures PricesAreDigits(e)
  {
    var n: nat, id: nat :| AnsweredWith(up, proxies, sent, from, e, n, id);
  }

  /**
   * With `retry_attemps` set to 0 no request is ever made: every page is
   * skipped and the list stays as it was.
   */
  lemma {:induction false} RunWithoutRetries(cfg: Config, proxies: seq<string>, up: Upstream, page: nat, s: Session, acc: seq<GameEntry>)
    requires ValidConfig(cfg) && cfg.retryAttempts == 0
    ensures var o := RunFrom(cfg, proxies, up, page, s, acc);
      o.entries == acc && o.crash.None? && o.session.discountRequests == s.discountRequests
    decreases LastPage + 1 - page
  {
    if page <= LastPage {
      var s1 := ScheduledRotation(cfg, proxies, page, s);
      ScheduledRotationMoves(cfg, proxies, page, s);
      assert PageRetry(cfg, proxies, up, page, s1, 0) == (None, s1, 0);
      RunWithoutRetries(cfg, proxies, up, page + 1, s1, acc);
    }
  }
}

=== FILE: wrappers.dfy ===
/** Option and Result, the two failure-carrying datatypes the model uses. */
module Wrappers {
  /** Python's `X | None`. */
  datatype Option<+T> = None | Some(value: T)

  /** A value, or the exception the Python code would raise instead. */
  datatype Result<+T, +E> = Ok(value: T) | Err(error: E)
}
